=== FILE: README.md ===
# Kanban board: batched changes, optimistic concurrency and live fanout

This project models the core of a collaborative Kanban board web application in Dafny.
A board belongs to one user. It holds ordered lists, and each list holds ordered cards. Each
list's `order` and each card's `order` is meant to be its position among its siblings.

- **Client batching.** The browser applies every edit to its own copy of the board at once,
  then queues the edit. The first edit in an empty queue saves the board and starts a 500 ms
  timer. When the timer fires, the queued edits go to the server as one batch, together with
  the counter value the client last saw.
- **Server guard.** The server's `applyChanges` mutation first validates the batch. It then
  checks that the caller owns the board, and then checks that the stored counter equals the
  one sent.
- **Transaction.** If the guard passes, the server runs every change in one database
  transaction and bumps the counter by one.
- **Fanout.** Finally the server pushes a `BOARD_UPDATED` server-sent event to every other
  tab watching the board.

The model is split as follows:

- `wire.dfy` (`Wire`): the eight change kinds exchanged between client and server. A ninth
  constructor, `Unrecognised`, stands for a type tag outside the validated union.
- `js_array.dfy` (`JsArray`): the JavaScript `splice` and indexing semantics that the
  reorder and move code relies on. This includes negative starts and `undefined` for a
  missing element.
- `ordering.dfy` (`Ordering`): rows that carry a parent id and an `order`. It defines the
  density invariant (the siblings' orders are exactly `0..n-1`), a sort by `order` that
  keeps tied rows in table order (one admissible result of `orderBy: { order: "asc" }`), `updateMany` windows that shift orders, and the
  renumbering loop (`Renumber`, a method proved against `Reindexed`).
- `board_router.dfy` (`BoardRouter`): the server.
  - `Step`, `RunBatch` and `Commit` are the pure specification of one change, of the
    transaction loop and of the whole mutation.
  - The `Store` class holds the tables and changes them in place. Its methods are proved
    equal to the specification: `AddBoard`, one method per change kind, `RunTransaction`
    (all or nothing), `CommitChanges` and `ApplyChanges` (with the fanout).
- `board_density.dfy` (`BoardDensity`): which changes keep the density invariant, and the
  same-list card move that does not.
- `board_state.dfy` (`BoardState`): the client.
  - `ApplyLocally` is the optimistic reducer.
  - The `Session` class is the hook's state (board, queue, saved state, pending timer).
  - `CounterDrift` relates the client's counter to the server's.
- `sse.dfy` (`Sse`): the process-wide registry of open event streams. Each tab's stream is
  modelled as the list of frames enqueued on it.

Record ids created by the server are modelled by `BoardRouter.GeneratedId(n)`. It returns a
string of length `n + 1`, so ids are fresh by construction. The client's ids for optimistic
records (which come from the clock) are a `freshId` parameter.

The client's counter and the server's do not move in step:

- The reducer bumps the client's counter once per change.
- The server bumps its counter once per batch (`BoardState.CounterDrift`).

So after a successful batch of two or more changes, unless the board is refetched in
between, the client's next batch carries a counter that the server rejects with CONFLICT
(`BoardState.NextBatchConflicts`). On CONFLICT the client's mutation throws, so
it neither restores its saved state nor clears it. The client's "restore on failure" branch
is reached only when the server replies without `success`, and the server never does.
`Session.ProcessBatch` models all three outcomes.

## Model

| member | source | states |
|---|---|---|
| JsArray.SpliceStart | apps/web/src/server/routers/board.ts:316-317 | where `splice` starts, always within `0..len`: the start itself when it lies in `0..len`; `len + start`, clamped at 0, for a negative start; `len` for a start past the end |
| JsArray.RemoveAt | apps/web/src/server/routers/board.ts:316 | `splice(start, 1)` removes an element exactly when the array is non-empty and start < length; the element is `a[start]` for an in-range start; the rest is the array minus that element (as a multiset); nothing removed leaves the array unchanged |
| JsArray.InsertAt | apps/web/src/server/routers/board.ts:317 | `splice(start, 0, x)` grows the array by one, adds exactly `x` to its multiset and puts `x` at the normalised start |
| JsArray.At | apps/web/src/components/Board/boardState.tsx:216-218 | indexing is defined exactly for `0 <= i < len` and then yields `a[i]` |
| JsArray.Move | apps/web/src/components/Board/boardState.tsx:157-173 | the two-splice move is a permutation of the array |
| JsArray.MoveInRange | apps/web/src/components/Board/boardState.tsx:157-173 | for in-range indices the element lands at `to`; elements outside the window stay; those inside shift one step towards `from` |
| JsArray.MoveExample | apps/web/src/components/Board/boardState.tsx:157-173 | `[A, B, C]` moved from 0 to 2 is `[B, C, A]` |
| Ordering.SortByOrder | apps/web/src/server/routers/board.ts:286-289 | `findMany` with ascending `order` returns a sorted permutation of the matching rows (tied rows keep table order) |
| Ordering.InsertByOrder | apps/web/src/server/routers/board.ts:286-289 | one insertion step keeps the rows sorted and adds exactly the new row |
| Ordering.UpdateMany | apps/web/src/server/routers/board.ts:383-389 | `updateMany` changes only orders: every row keeps its id, parent and text; exactly the rows of parent `p` whose order lies in the window move by `delta`, and every other row is unchanged |
| Ordering.Renumber | apps/web/src/server/routers/board.ts:290-297 | the loop of `update({ order: index })` over the ranked rows leaves every row as `Reindexed` says (the last write for an id wins) |
| Ordering.ReindexedDense | apps/web/src/server/routers/board.ts:286-297 | renumbering a parent's rows by a permutation of them makes that parent dense and leaves other parents' rows untouched |
| Ordering.ReindexedKeepsOrder | apps/web/src/server/routers/board.ts:286-297 | renumbering along the sorted rows keeps the siblings' relative order |
| Ordering.SetPlaceAt | apps/web/src/server/routers/board.ts:422-428 | with unique ids, `update` of a row's list and order changes exactly that row |
| Ordering.WithoutIdDistinct | apps/web/src/server/routers/board.ts:282-284 | `delete` by id keeps primary keys unique |
| Ordering.DenseCovers | apps/web/src/server/routers/board.ts:286-297 | a dense parent has a row at every position `0..n-1` |
| BoardRouter.GeneratedId | apps/web/src/server/routers/board.ts:86-94 | the n-th generated id has length n+1, so it differs from every earlier one |
| BoardRouter.CreateLast | apps/web/src/server/routers/board.ts:270-280 | a created row is appended with the given id, parent and text at order `count` of its parent, and the parent's count grows by one; earlier rows are untouched; ADD_CARD (lines 330-340) is the same operation on cards |
| BoardRouter.DeleteAndRenumber | apps/web/src/server/routers/board.ts:281-298 | the delete succeeds exactly when a row has the id (otherwise it throws); afterwards no row has that id and no row was added; DELETE_CARD (lines 348-365) is the same operation on cards |
| BoardRouter.UpdateText | apps/web/src/server/routers/board.ts:300-305 | the update succeeds exactly when a row has the id; it sets the text of that row and changes nothing else; UPDATE_CARD_CONTENT (lines 341-346) is the same operation on cards |
| BoardRouter.ReorderLists | apps/web/src/server/routers/board.ts:306-329 | equal indices leave the lists as they are; otherwise the change throws exactly when the source index names no list of the board; a successful reorder changes only `order` fields |
| BoardRouter.CloseGap | apps/web/src/server/routers/board.ts:383-389 | the source list's cards with order above `sourceIndex` move down one; every other card, and every field but `order`, is unchanged |
| BoardRouter.CrossListShift | apps/web/src/server/routers/board.ts:383-399 | for two different lists: source cards above `sourceIndex` move down one, destination cards at or above `destinationIndex` move up one, nothing else changes |
| BoardRouter.WindowShift | apps/web/src/server/routers/board.ts:400-418 | the list's cards in `(s, d]` move down one when s < d, those in `[d, s)` move up one when s > d; nothing else changes |
| BoardRouter.MoveCardAsWritten | apps/web/src/server/routers/board.ts:366-430 | MOVE_CARD as written throws exactly when no card has the id; otherwise only `listId` and `order` fields change, the card lands in the destination at `destinationIndex`, and cards of other lists are untouched |
| BoardRouter.MoveCardIntended | apps/web/src/server/routers/board.ts:366-430 | the corrected MOVE_CARD keeps the same contract as the code as written: throws exactly for a missing card, changes only `listId` and `order`, places the card, leaves other lists alone |
| BoardRouter.BoardUpdated | apps/web/src/server/routers/board.ts:446-449 | the published message is the `BOARD_UPDATED` JSON prefix, the decimal digits of the new counter and `}`; reading those digits back gives the counter |
| BoardRouter.Decimal | apps/web/src/server/routers/board.ts:446-449 | the counter's decimal form is non-empty, made of digits, and has no leading zero |
| BoardRouter.DecimalRoundTrip | apps/web/src/server/routers/board.ts:446-449 | reading the decimal digits back gives the number written |
| BoardRouter.Step | apps/web/src/server/routers/board.ts:268-432 | one change of the loop never touches the board table and never lowers the id source |
| BoardRouter.RunBatch | apps/web/src/server/routers/board.ts:267-435 | the loop over the batch never touches the board table and never lowers the id source |
| BoardRouter.Commit | apps/web/src/server/routers/board.ts:240-462 | a rejected mutation leaves the store unchanged; an applied one implies ownership and a matching counter, replies counter+1 and stores it on the board, and leaves lists, cards and the id counter exactly as the all-or-nothing run of the batch (`RunBatch`) produced them |
| BoardRouter.GuardOutcomes | apps/web/src/server/routers/board.ts:232-263 | rejections come in order (BAD_REQUEST for an unknown kind, FORBIDDEN, CONFLICT) and change nothing; a batch is applied iff it is valid, owned, current and no change throws |
| BoardRouter.RunBatchSplit | apps/web/src/server/routers/board.ts:268 | running a batch is running a prefix and then the rest |
| BoardRouter.FailingChangeAbortsBatch | apps/web/src/server/routers/board.ts:456-462 | a change that throws anywhere in the batch rolls back every earlier change and yields INTERNAL_SERVER_ERROR |
| BoardRouter.MissingRowThrows | apps/web/src/server/routers/board.ts:281-432 | `delete`, `update` and `findUnique` of a missing list or card throw, as does an unknown change kind (431-432); creating a list or card never throws |
| BoardRouter.ReorderSameIndexIsNoOp | apps/web/src/server/routers/board.ts:306-314 | REORDER_LIST with equal indices leaves the store exactly as it was |
| BoardRouter.StaleCounterConflicts | apps/web/src/server/routers/board.ts:258-263 | after a batch commits with counter k, any later batch that still sends k gets CONFLICT |
| BoardRouter.StepKeepsWellFormed | apps/web/src/server/routers/board.ts:268-432 | every change that does not throw keeps ids unique and issued |
| BoardRouter.RunBatchKeepsWellFormed | apps/web/src/server/routers/board.ts:268-432 | a batch that commits keeps ids unique and issued |
| BoardRouter.CommitKeepsWellFormed | apps/web/src/server/routers/board.ts:240-462 | the mutation keeps the store well formed |
| BoardRouter.ReorderKeepsIds | apps/web/src/server/routers/board.ts:306-329 | REORDER_LIST changes only list orders |
| BoardRouter.Store.constructor | apps/web/src/server/routers/board.ts:76-110 | an empty store is well formed |
| BoardRouter.Store.AddBoard | apps/web/src/server/routers/board.ts:76-110 | a name of 1..50 characters adds exactly one board, under a fresh id, owned by the caller, with counter 0; any other name changes nothing |
| BoardRouter.Store.ApplyChange | apps/web/src/server/routers/board.ts:268-432 | performing a change on the tables yields exactly `Step`'s result, or reports the throw |
| BoardRouter.Store.ApplyAddList | apps/web/src/server/routers/board.ts:270-280 | ADD_LIST in place equals `Step` |
| BoardRouter.Store.ApplyDeleteList | apps/web/src/server/routers/board.ts:281-298 | DELETE_LIST in place (delete, fetch sorted, renumber) equals `Step` |
| BoardRouter.Store.ApplyUpdateListTitle | apps/web/src/server/routers/board.ts:300-305 | UPDATE_LIST_TITLE in place equals `Step` |
| BoardRouter.Store.ApplyReorderList | apps/web/src/server/routers/board.ts:306-329 | REORDER_LIST in place equals `Step`, including the throw when the first splice removes nothing |
| BoardRouter.Store.ApplyAddCard | apps/web/src/server/routers/board.ts:330-340 | ADD_CARD in place equals `Step` |
| BoardRouter.Store.ApplyUpdateCardContent | apps/web/src/server/routers/board.ts:341-346 | UPDATE_CARD_CONTENT in place equals `Step` |
| BoardRouter.Store.ApplyDeleteCard | apps/web/src/server/routers/board.ts:348-365 | DELETE_CARD in place equals `Step` |
| BoardRouter.Store.ApplyMoveCard | apps/web/src/server/routers/board.ts:366-430 | the sequence of `updateMany` calls and the final `update` equals `Step` |
| BoardRouter.Store.RunTransaction | apps/web/src/server/routers/board.ts:267-435 | the transaction succeeds iff the batch runs; it leaves the batch's result on success and the original tables on failure |
| BoardRouter.Store.CommitChanges | apps/web/src/server/routers/board.ts:240-443 | the reply and the new tables are exactly `Commit`'s, and the store stays well formed |
| BoardRouter.Store.ApplyChanges | apps/web/src/server/routers/board.ts:240-462 | as `CommitChanges`; on success exactly one BOARD_UPDATED frame with the new counter reaches every other tab of the board and no other stream; on failure no stream receives anything |
| BoardDensity.CreateLastKeepsDense | apps/web/src/server/routers/board.ts:270-280 | creating at `count` keeps every parent dense and adds one sibling, which gets the highest order |
| BoardDensity.DeleteKeepsDense | apps/web/src/server/routers/board.ts:281-298 | delete plus renumber makes the parent dense (even if it was not) and keeps other parents dense when the row belongs to that parent |
| BoardDensity.DeleteRemovesOnlyThatRow | apps/web/src/server/routers/board.ts:281-298 | the deleted row is gone and every other row survives with only its order changed |
| BoardDensity.DeleteKeepsRelativeOrder | apps/web/src/server/routers/board.ts:286-297 | the remaining siblings keep their relative order |
| BoardDensity.UpdateTextKeepsDense | apps/web/src/server/routers/board.ts:300-305 | a text update keeps density |
| BoardDensity.ReorderKeepsDense | apps/web/src/server/routers/board.ts:306-329 | a reorder makes the board's lists dense and keeps other parents dense |
| BoardDensity.ReorderPlaces | apps/web/src/server/routers/board.ts:306-329 | each list of the board ends at its position in the spliced sequence |
| BoardDensity.MoveCardAcross | apps/web/src/server/routers/board.ts:383-399 | a cross-list move shifts the source cards above `s` down, the destination cards at or above `d` up, and places the card; counts move by one |
| BoardDensity.CrossMoveKeepsDense | apps/web/src/server/routers/board.ts:366-430 | a cross-list move of the card at `s` to `0 <= d <= count` keeps every list dense |
| BoardDensity.MoveCardAgreesAcrossLists | apps/web/src/server/routers/board.ts:392-399 | for a cross-list move, the code as written and the corrected code agree |
| BoardDensity.MoveCardWithin | apps/web/src/server/routers/board.ts:400-418 | the corrected same-list move shifts exactly the window between `s` and `d` by one towards `s` |
| BoardDensity.MoveCardIntendedKeepsDense | apps/web/src/server/routers/board.ts:400-418 | the corrected same-list move keeps every list dense |
| BoardDensity.FourCardsDense | apps/web/src/server/routers/board.ts:366-430 | the example list `c0..c3` at orders `0..3` is dense |
| BoardDensity.SameListMoveAsWritten | apps/web/src/server/routers/board.ts:383-418 | as written, moving `c0` from 0 to 2 gives orders `c0:2, c1:0, c2:0, c3:1` |
| BoardDensity.SameListMoveBreaksDensity | apps/web/src/server/routers/board.ts:383-418 | as written, a same-list move can turn a dense list into one with duplicate orders |
| BoardDensity.SameListUpwardMoveBreaksDensity | apps/web/src/server/routers/board.ts:383-418 | as written, moving `c1` from 1 to 0 gives `c0:1, c1:0, c2:1, c3:2`, which is not dense |
| BoardDensity.SameListMoveIntendedExample | apps/web/src/server/routers/board.ts:400-418 | corrected, the same move gives `c0:2, c1:0, c2:1, c3:3` |
| BoardDensity.StepKeepsDense | apps/web/src/server/routers/board.ts:268-432 | a change that conforms to the store keeps every board and list dense |
| BoardDensity.RunBatchKeepsDense | apps/web/src/server/routers/board.ts:267-435 | a conforming batch keeps every board and list dense |
| BoardDensity.CommitKeepsDense | apps/web/src/server/routers/board.ts:240-462 | the mutation keeps the store dense for a conforming batch |
| BoardState.Filter | apps/web/src/components/Board/boardState.tsx:233-240 | `filter` keeps exactly the elements satisfying the test |
| BoardState.FilterAppend | apps/web/src/components/Board/boardState.tsx:233-240 | filtering distributes over concatenation |
| BoardState.FindList | apps/web/src/components/Board/boardState.tsx:194-232 | `find` returns the first list with that id (no earlier list has it), or none exists |
| BoardState.FindUnique | apps/web/src/components/Board/boardState.tsx:194-232 | with unique ids, `find` returns that very list |
| BoardState.TotalCardsUpdate | apps/web/src/components/Board/boardState.tsx:194-232 | replacing one list changes the card total by the difference in its card count |
| BoardState.Reordered | apps/web/src/components/Board/boardState.tsx:157-173 | the client reorder keeps the number of lists |
| BoardState.ApplyLocally | apps/web/src/components/Board/boardState.tsx:138-290 | no board stays no board; id and tab are kept; every recognised change bumps the counter by one; an unknown kind returns the board unchanged |
| BoardState.AddListAppends | apps/web/src/components/Board/boardState.tsx:142-156 | ADD_LIST appends one empty list whose order is the old list count |
| BoardState.ReorderIsMove | apps/web/src/components/Board/boardState.tsx:157-173 | REORDER_LIST is the two-splice move of the lists; in range, the list lands at the destination |
| BoardState.AddCardTouchesOnlyItsList | apps/web/src/components/Board/boardState.tsx:174-193 | ADD_CARD appends one card to the named list and changes no other list |
| BoardState.SameListMovePermutes | apps/web/src/components/Board/boardState.tsx:194-232 | a same-list MOVE_CARD permutes that list's cards and puts the moved card at the destination |
| BoardState.CrossListMoveKeepsCards | apps/web/src/components/Board/boardState.tsx:194-232 | a cross-list move takes the card out of the source, puts it at the destination, changes no other list and keeps the card total |
| BoardState.DeleteListFilters | apps/web/src/components/Board/boardState.tsx:233-240 | DELETE_LIST removes exactly the lists with that id |
| BoardState.UpdateListTitleOnlyTitle | apps/web/src/components/Board/boardState.tsx:242-251 | UPDATE_LIST_TITLE changes only the titles of lists with that id |
| BoardState.UpdateCardContentOnlyContent | apps/web/src/components/Board/boardState.tsx:252-268 | UPDATE_CARD_CONTENT changes only the content of cards with that id in that list |
| BoardState.DeleteCardFilters | apps/web/src/components/Board/boardState.tsx:270-284 | DELETE_CARD leaves the named list's cards filtered, so exactly the cards with another id survive, in their old relative order; no other list changes |
| BoardState.MoveInList | apps/web/src/components/Board/boardState.tsx:202-225 | MOVE_CARD on one list keeps its id, title and order; the source list of a same-list move keeps its cards as a multiset; a cross-list source loses exactly the card at an in-range index (nothing past the end); the destination gains exactly the moved card when there is one; every other list is unchanged |
| BoardState.MovedCard | apps/web/src/components/Board/boardState.tsx:216-218 | the card a cross-list move inserts is the card at `sourceIndex` of the first list with the source id; none for a negative index or a missing list |
| BoardState.ApplyAll | apps/web/src/components/Board/boardState.tsx:126-136 | replaying queued changes on no board gives no board |
| BoardState.ApplyAllCounter | apps/web/src/components/Board/boardState.tsx:138-290 | replaying n recognised changes raises the local counter by n |
| BoardState.CounterDrift | apps/web/src/components/Board/boardState.tsx:297-324 | after a batch the server applies, the client's counter is ahead by the batch size while the server's is ahead by one |
| BoardState.NextBatchConflicts | apps/web/src/components/Board/boardState.tsx:297-324 | after a successful batch of two or more changes, the next batch with the client's counter is refused with CONFLICT and leaves the store unchanged |
| BoardState.Session.constructor | apps/web/src/components/Board/boardState.tsx:89-101 | the hook starts with no board, an empty queue, no saved state and no timer |
| BoardState.Session.InitializeBoard | apps/web/src/components/Board/boardState.tsx:112-124 | sets the board and nothing else, in any state, including with changes queued |
| BoardState.Session.ScheduleBatch | apps/web/src/components/Board/boardState.tsx:291-295 | a timer is pending afterwards; nothing else changes |
| BoardState.Session.ApplyChange | apps/web/src/components/Board/boardState.tsx:126-136 | queues the change and applies it locally; the first change of a batch saves the board and arms the timer, and the board shown is then the saved board with the queue replayed on it; later changes keep that relation as long as no refetch replaced the board in between |
| BoardState.Session.ProcessBatch | apps/web/src/components/Board/boardState.tsx:297-324 | clears the timer and the queue; sends the queued batch with the id, tab and counter of the board the batch's first change saw (the saved board, or `""` and 0 without one); on success drops the saved state, on a non-success reply restores the saved board when there is one, on a throw keeps both |
| BoardState.RefetchDuringBatch | apps/web/src/components/Board/boardState.tsx:112-136 | a board refetched while changes are queued still takes further changes, and the flush sends both changes with the counter of the board the first change saw, not the refetched one |
| Sse.WithClient | apps/web/src/utils/sse.ts:5-12 | the board's inner map gains (or replaces) the tab's controller; other tabs and boards are untouched |
| Sse.WithoutClient | apps/web/src/utils/sse.ts:14-21 | the tab is forgotten, the board is dropped only when no other tab remains, other boards are untouched, an absent board is a no-op |
| Sse.Frame | apps/web/src/utils/sse.ts:32 | a frame is `data: ` + payload + a blank line |
| Sse.VisitOne | apps/web/src/utils/sse.ts:30-36 | one iteration of `forEach` writes one frame to a tab other than the excluded one |
| Sse.Broadcast | apps/web/src/utils/sse.ts:29-36 | the loop writes exactly one frame to each tab but the excluded one and counts them |
| Sse.LeftToWrite | apps/web/src/utils/sse.ts:30-36 | each visit leaves one fewer tab to write to, unless it is the excluded one |
| Sse.AddKeepsNoEmptyBoards | apps/web/src/utils/sse.ts:5-12 | no board is ever registered with no tabs after an add |
| Sse.ReAddDoesNotGrow | apps/web/src/utils/sse.ts:9 | reconnecting a tab replaces its controller without adding a tab |
| Sse.RemoveKeepsNoEmptyBoards | apps/web/src/utils/sse.ts:14-21 | the board is dropped with its last tab |
| Sse.RemoveUnknownIsNoOp | apps/web/src/utils/sse.ts:14-21 | removing an unknown board or tab changes nothing |
| Sse.Recipients | apps/web/src/utils/sse.ts:27-36 | a tab receives the update exactly when it is registered for the board and is not the sending tab |
| Sse.RecipientsCount | apps/web/src/utils/sse.ts:27-40 | the number of frames sent is the board's tab count, less one when the sending tab is watching; zero for an unknown board |
| Sse.Registry.constructor | apps/web/src/utils/sse.ts:3 | the registry starts empty |
| Sse.Registry.AddClient | apps/web/src/utils/sse.ts:5-12 | the registry becomes `WithClient` of the old one; no stream receives anything |
| Sse.Registry.RemoveClient | apps/web/src/utils/sse.ts:14-21 | the registry becomes `WithoutClient` of the old one; no stream receives anything |
| Sse.Registry.SendUpdate | apps/web/src/utils/sse.ts:23-41 | the registry is unchanged; every other tab of the board receives exactly one frame of the payload and no other stream changes; the count is the number of recipients |

## Left out

- The user table and its `connect` on board creation, and the session lookup: the caller's
  user id is a parameter.
- Other board procedures (`listBoards`, `getBoard`, `updateBoard`, `deleteBoard`,
  `getLists`): these are single queries with no logic beyond an ownership filter.
- Foreign keys and cascades: the database schema is not part of this model. So
  DELETE_LIST leaves the list's card rows in place, and a card may name a list that does
  not exist.
- Malformed payloads: `zod` checks only the change's `type` and accepts any `payload`
  (board.ts:19). A payload with missing or wrongly typed fields passes validation and then
  fails inside the transaction with INTERNAL_SERVER_ERROR. The typed `Change`
  constructors cannot express such a payload, so that path is not modelled. A batch that
  names an unknown type is modelled: it is rejected with BAD_REQUEST before any other
  check.
- The race between the ownership and counter check and the transaction: both run in one
  step here, so two concurrent requests are not interleaved.
- `Promise.all`: the updates that renumber rows run one after another in the model. Since
  each touches a distinct row, except when ids repeat, where the model takes the last write,
  the order does not matter.
- React state, effects and closures: `Session` holds the hook's state directly. The board
  id, tab id and counter that `processBatch` sends come from the board captured by the
  closure that armed the timer. That board is the one the batch's first change saw, which
  is the saved board, and the model sends the saved board's values.
- ProcessBatch: on a reply without `success` the model restores the current batch's saved
  board. The source's closure reads `savedState` from the render that armed the timer,
  before that batch's own saved board was stored, so it would restore an earlier saved
  board or none. The server never sends such a reply, so the branch is not reached.
- Interleavings between the client's `await` and later edits: `ProcessBatch` is atomic and
  takes the server's outcome as a parameter.
- The client's `splice` when the source index names no element: JavaScript then inserts
  `undefined`. The model's client inserts nothing. (The server model does capture the
  throw that the same situation causes there.)
- Timers: `setTimeout` is a `timerPending` flag. The 500 ms delay is not modelled.
- `JSON.stringify` of the event and `TextEncoder`: the payload is the string
  `BoardUpdated(n)` and a stream holds strings, not bytes.
- The event-stream route (app/api/sse/route.ts) keeps its own `clients` map (route.ts:3).
  It fills that map when a stream starts and empties it on abort (route.ts:15-18, 26-29).
  It never calls `addClient` or `removeClient` from utils/sse.ts. So in the source as
  written, the registry through which `applyChanges` broadcasts (board.ts:6, 446) is never
  filled, and no tab receives BOARD_UPDATED. The model assumes one shared registry, filled
  through `Registry.AddClient` and `Registry.RemoveClient`. The route's `CONNECTED`
  greeting frame is not modelled.
- Logging through `console.log` and `console.error`.
- Ids from `Date.now()` on the client and the ids the database assigns: these are a
  `freshId` parameter and `GeneratedId`.
- AddBoard: the name check counts characters (Unicode scalar values), while zod's
  `min(1).max(50)` counts UTF-16 code units. A name of 26 characters outside the Basic
  Multilingual Plane is 52 code units long: the source rejects it and the model accepts
  it. Strings are sequences of `char` here, and there is no UTF-16 encoding to count.
- ApplyChanges: the source calls `sendSSEUpdate` inside the `try` (board.ts:444-461). If
  `enqueue` throws on a closed stream (sse.ts:32), the reply is INTERNAL_SERVER_ERROR,
  although the transaction and the counter bump are already committed. In that case
  later tabs also miss the frame. The model's streams never close, so it always replies
  with `Commit`'s result and delivers to every other tab.
- Ordering.SortByOrder: SQL leaves the order of rows with equal `order` unspecified. The
  model picks one admissible result, table order, so which tied row receives the lower
  position after a renumbering is the model's choice. Density after a renumbering does not
  depend on it: `Ordering.ReindexedDense` holds for any permutation of the siblings.
- Integer width: orders and counters are unbounded integers. JavaScript numbers lose
  precision only above 2^53.
- BoardDensity.CommitKeepsDense: density is proved only for batches whose changes conform to
  the store. A conforming batch deletes rows of the board's own lists, and moves a card to
  another list, from the position it holds, to a position within range. The server checks
  none of these, so a batch sent by a client that is out of date can leave gaps or
  duplicate orders.

## Findings

| source | as written | input that shows it | evidently intended | confidence | as-written member | corrected member |
|---|---|---|---|---|---|---|
| apps/web/src/server/routers/board.ts:383-418 | a same-list MOVE_CARD first shifts every card above the source index down one, then shifts the window between the two indices again | list `L` with cards `c0..c3` at orders `0..3`; move `c0` from 0 to 2 in `L`; result `c1:0, c2:0, c3:1, c0:2`; moving `c1` from 1 to 0 instead gives `c0:1, c1:0, c2:1, c3:2` | only the window shift for a same-list move, giving `c1:0, c2:1, c0:2, c3:3` | not executed | BoardDensity.SameListMoveBreaksDensity | BoardDensity.MoveCardIntendedKeepsDense |

The `Store` keeps the behaviour as written, because it models what the server does.
`BoardRouter.MoveCardIntended` is the corrected definition. For a cross-list move it agrees
with the code as written (`BoardDensity.MoveCardAgreesAcrossLists`).

=== FILE: board_density.dfy ===
/** The density invariant of the server's tables, change kind by change kind: after every
    change a well-behaved client can send, each board's lists and each list's cards carry
    exactly the orders `0..n-1`. The one exception is the same-list MOVE_CARD as written. */
module BoardDensity {
  import opened Wire
  import opened Ordering
  import opened JsArray
  import opened BoardRouter

  // ---------------------------------------------------------------------------------------
  // ADD_LIST, ADD_CARD

  /** A created row takes the current sibling count as its order: dense siblings stay
      dense, and the new row comes after all of its siblings. */
  lemma CreateLastKeepsDense(rows: seq<Row>, id: Id, parent: Id, text: string, q: Id)
    requires Dense(rows, q)
    ensures Dense(CreateLast(rows, id, parent, text), q)
    ensures Count(CreateLast(rows, id, parent, text), parent) == Count(rows, parent) + 1
    ensures q == parent ==>
              forall i | 0 <= i < |rows| && rows[i].parent == q ::
                rows[i].order < CreateLast(rows, id, parent, text)[|rows|].order
  {
    var r := Row(id, parent, text, Count(rows, parent));
    var out := rows + [r];
    CountAppend(rows, r, q);
    CountAppend(rows, r, parent);
    assert forall i | 0 <= i < |rows| :: out[i] == rows[i];
  }

  // ---------------------------------------------------------------------------------------
  // DELETE_LIST, DELETE_CARD

  /** Deleting a row of `parent` and renumbering `parent` leaves every parent dense that was
      dense; `parent` itself comes out dense whatever its orders were before. */
  lemma DeleteKeepsDense(rows: seq<Row>, id: Id, parent: Id, q: Id)
    requires DistinctIds(rows) && HasId(rows, id)
    requires forall i | 0 <= i < |rows| && rows[i].id == id :: rows[i].parent == parent
    requires q != parent ==> Dense(rows, q)
    ensures Dense(DeleteAndRenumber(rows, id, parent).value, q)
  {
    var rest := WithoutId(rows, id);
    var ranked := SortByOrder(Siblings(rest, parent));
    var out := Reindexed(rest, ranked);
    WithoutIdDistinct(rows, id);
    ReindexedDense(rest, parent, ranked);
    if q != parent {
      WithoutIdOtherSiblings(rows, id, q);
      WithoutIdMembers(rows, id);
      DenseTransfer(rows, rest, q);
      DenseElsewhere(rest, out, parent, q);
    }
  }

  /** The deleted row is gone and every other row survives, with its id, parent and text. */
  lemma DeleteRemovesOnlyThatRow(rows: seq<Row>, id: Id, parent: Id)
    requires DistinctIds(rows) && HasId(rows, id)
    ensures var out := DeleteAndRenumber(rows, id, parent).value;
            && !HasId(out, id)
            && forall i | 0 <= i < |rows| && rows[i].id != id ::
                 exists j :: 0 <= j < |out| && out[j] == rows[i].(order := out[j].order)
  {
    var rest := WithoutId(rows, id);
    var out := Reindexed(rest, SortByOrder(Siblings(rest, parent)));
    WithoutIdMembers(rows, id);
    forall j | 0 <= j < |out| ensures out[j].id != id {
      assert rest[j] in rest;
    }
    forall i | 0 <= i < |rows| && rows[i].id != id
      ensures exists j :: 0 <= j < |out| && out[j] == rows[i].(order := out[j].order)
    {
      assert rows[i] in rest;
      var j :| 0 <= j < |rest| && rest[j] == rows[i];
      assert out[j] == rows[i].(order := out[j].order);
    }
  }

  /** The survivors of `parent` keep their relative order: of two of them, the one with the
      smaller order before the delete still has the smaller order after the renumbering. */
  lemma DeleteKeepsRelativeOrder(rows: seq<Row>, id: Id, parent: Id, a: nat, b: nat)
    requires DistinctIds(rows) && HasId(rows, id)
    requires var rest := WithoutId(rows, id);
             && a < |rest| && b < |rest| && rest[a].parent == parent && rest[b].parent == parent
             && rest[a].order < rest[b].order
    ensures var out := DeleteAndRenumber(rows, id, parent).value;
            out[a].id == WithoutId(rows, id)[a].id && out[b].id == WithoutId(rows, id)[b].id
            && out[a].order < out[b].order
  {
    var rest := WithoutId(rows, id);
    WithoutIdDistinct(rows, id);
    ReindexedKeepsOrder(rest, parent, SortByOrder(Siblings(rest, parent)), a, b);
  }

  // ---------------------------------------------------------------------------------------
  // UPDATE_LIST_TITLE, UPDATE_CARD_CONTENT

  lemma UpdateTextKeepsDense(rows: seq<Row>, id: Id, text: string, q: Id)
    requires Dense(rows, q)
    ensures Dense(SetText(rows, id, text), q)
  {
    DenseSameShape(rows, SetText(rows, id, text), q);
  }

  // ---------------------------------------------------------------------------------------
  // REORDER_LIST

  /** Reordering renumbers the board's lists `0..n-1` whatever their orders were, and
      leaves other boards' lists alone. */
  lemma ReorderKeepsDense(lists: seq<Row>, boardId: Id, s: int, d: int, q: Id)
    requires DistinctIds(lists) && ReorderLists(lists, boardId, s, d).Some?
    requires q != boardId || s == d ==> Dense(lists, q)
    ensures Dense(ReorderLists(lists, boardId, s, d).value, q)
  {
    if s != d {
      var sorted := SortByOrder(Siblings(lists, boardId));
      var (moved, rest) := RemoveAt(sorted, s);
      var ranked := InsertAt(rest, d, moved.value);
      assert multiset(ranked) == multiset(Siblings(lists, boardId));
      ReindexedDense(lists, boardId, ranked);
      if q != boardId {
        DenseElsewhere(lists, Reindexed(lists, ranked), boardId, q);
      }
    }
  }

  /** After a reorder, each of the board's lists takes as its order its index in the
      board's lists (ascending order) with the one at `s` taken out and put back at `d`. */
  lemma ReorderPlaces(lists: seq<Row>, boardId: Id, s: int, d: int)
    requires DistinctIds(lists) && s != d && ReorderLists(lists, boardId, s, d).Some?
    ensures var sorted := SortByOrder(Siblings(lists, boardId));
            var out := ReorderLists(lists, boardId, s, d).value;
            forall i | 0 <= i < |lists| && lists[i].parent == boardId ::
              0 <= out[i].order < |sorted| && Move(sorted, s, d)[out[i].order] == lists[i]
  {
    var sorted := SortByOrder(Siblings(lists, boardId));
    var ranked := Move(sorted, s, d);
    assert ReorderLists(lists, boardId, s, d).value == Reindexed(lists, ranked);
    forall i | 0 <= i < |lists| && lists[i].parent == boardId
      ensures 0 <= Reindexed(lists, ranked)[i].order < |sorted|
      ensures ranked[Reindexed(lists, ranked)[i].order] == lists[i]
    {
      ReindexedPosition(lists, boardId, ranked, i);
    }
  }

  // ---------------------------------------------------------------------------------------
  // MOVE_CARD across lists

  /** How a cross-list move shifts a card other than the moved one. */
  function CrossDelta(r: Row, src: Id, dst: Id, s: int, d: int): int
  {
    if r.parent == src && r.order > s then -1
    else if r.parent == dst && r.order >= d then 1
    else 0
  }

  /** A cross-list move: the source's cards after `s` move up one, the destination's cards
      from `d` on move down one, and the card lands at `d` in the destination. */
  lemma MoveCardAcross(cards: seq<Row>, src: Id, dst: Id, s: int, d: int, k: nat)
    requires DistinctIds(cards) && k < |cards| && src != dst
    ensures var out := MoveCardAsWritten(cards, src, dst, s, d, cards[k].id).value;
            && |out| == |cards|
            && out[k] == cards[k].(parent := dst, order := d)
            && (forall i | 0 <= i < |cards| && i != k ::
                  out[i] == cards[i].(order := cards[i].order + CrossDelta(cards[i], src, dst, s, d)))
            && forall p :: Count(out, p)
                           == Count(cards, p) - (if cards[k].parent == p then 1 else 0) + (if dst == p then 1 else 0)
  {
    var shifted := CrossListShift(cards, src, dst, s, d);
    assert HasId(cards, cards[k].id);
    forall i | 0 <= i < |cards|
      ensures shifted[i] == cards[i].(order := cards[i].order + CrossDelta(cards[i], src, dst, s, d))
    {
    }
    assert DistinctIds(shifted);
    SetPlaceAt(shifted, k, dst, d);
    var moved := shifted[k].(parent := dst, order := d);
    forall p
      ensures Count(shifted[k := moved], p)
           == Count(cards, p) - (if cards[k].parent == p then 1 else 0) + (if dst == p then 1 else 0)
    {
      CountSameParents(cards, shifted, p);
      CountUpdate(shifted, k, moved, p);
    }
  }

  /** With both lists dense and the card at `s` of its list, a cross-list move to a
      position `0..m` of the destination keeps every list dense. */
  lemma CrossMoveKeepsDense(cards: seq<Row>, src: Id, dst: Id, s: int, d: int, k: nat, q: Id)
    requires DistinctIds(cards) && k < |cards| && src != dst
    requires cards[k].parent == src && cards[k].order == s && 0 <= d <= Count(cards, dst)
    requires Dense(cards, src) && Dense(cards, dst) && Dense(cards, q)
    ensures Dense(MoveCardAsWritten(cards, src, dst, s, d, cards[k].id).value, q)
  {
    var out := MoveCardAsWritten(cards, src, dst, s, d, cards[k].id).value;
    MoveCardAcross(cards, src, dst, s, d, k);
    if q == src {
      CrossMoveSourceDense(cards, out, src, dst, s, d, k);
    } else if q == dst {
      CrossMoveDestinationDense(cards, out, src, dst, s, d, k);
    } else {
      assert Count(out, q) == Count(cards, q);
      DenseUntouched(cards, out, q);
    }
  }

  lemma CrossMoveSourceDense(cards: seq<Row>, out: seq<Row>, src: Id, dst: Id, s: int, d: int, k: nat)
    requires k < |cards| && src != dst && cards[k].parent == src && cards[k].order == s && Dense(cards, src)
    requires |out| == |cards| && out[k] == cards[k].(parent := dst, order := d)
    requires forall i | 0 <= i < |cards| && i != k ::
               out[i] == cards[i].(order := cards[i].order + CrossDelta(cards[i], src, dst, s, d))
    requires Count(out, src) == Count(cards, src) - 1
    ensures Dense(out, src)
  {
    forall i | 0 <= i < |out| && out[i].parent == src ensures 0 <= out[i].order < Count(out, src) {
      assert i != k;
      if i < k { assert cards[i].order != cards[k].order; } else { assert cards[k].order != cards[i].order; }
    }
    forall i, j | 0 <= i < j < |out| && out[i].parent == src && out[j].parent == src
      ensures out[i].order != out[j].order
    {
      assert i != k && j != k;
      assert cards[i].order != cards[j].order;
    }
  }

  lemma CrossMoveDestinationDense(cards: seq<Row>, out: seq<Row>, src: Id, dst: Id, s: int, d: int, k: nat)
    requires k < |cards| && src != dst && cards[k].parent == src && Dense(cards, dst)
    requires 0 <= d <= Count(cards, dst)
    requires |out| == |cards| && out[k] == cards[k].(parent := dst, order := d)
    requires forall i | 0 <= i < |cards| && i != k ::
               out[i] == cards[i].(order := cards[i].order + CrossDelta(cards[i], src, dst, s, d))
    requires Count(out, dst) == Count(cards, dst) + 1
    ensures Dense(out, dst)
  {
    forall i | 0 <= i < |out| && out[i].parent == dst ensures 0 <= out[i].order < Count(out, dst) {
    }
    forall i, j | 0 <= i < j < |out| && out[i].parent == dst && out[j].parent == dst
      ensures out[i].order != out[j].order
    {
      if i != k && j != k {
        assert cards[i].order != cards[j].order;
      }
    }
  }

  /** Across lists, the code as written and the intended move coincide. */
  lemma MoveCardAgreesAcrossLists(cards: seq<Row>, src: Id, dst: Id, s: int, d: int, cardId: Id)
    requires src != dst
    ensures MoveCardAsWritten(cards, src, dst, s, d, cardId) == MoveCardIntended(cards, src, dst, s, d, cardId)
  {
  }

  // ---------------------------------------------------------------------------------------
  // MOVE_CARD within one list

  /** How the intended same-list move shifts a card other than the moved one: the cards
      between the two positions move one step towards the vacated slot. */
  function WithinDelta(r: Row, l: Id, s: int, d: int): int
  {
    if r.parent != l then 0
    else if s < d && s < r.order <= d then -1
    else if d < s && d <= r.order < s then 1
    else 0
  }

  lemma MoveCardWithin(cards: seq<Row>, l: Id, s: int, d: int, k: nat)
    requires DistinctIds(cards) && k < |cards| && cards[k].parent == l && cards[k].order == s
    ensures var out := MoveCardIntended(cards, l, l, s, d, cards[k].id).value;
            && |out| == |cards|
            && out[k] == cards[k].(order := d)
            && (forall i | 0 <= i < |cards| && i != k ::
                  out[i] == cards[i].(order := cards[i].order + WithinDelta(cards[i], l, s, d)))
            && forall p :: Count(out, p) == Count(cards, p)
  {
    var shifted := WindowShift(cards, l, s, d);
    assert HasId(cards, cards[k].id);
    forall i | 0 <= i < |cards|
      ensures shifted[i] == cards[i].(order := cards[i].order + WithinDelta(cards[i], l, s, d))
    {
    }
    assert |shifted| == |cards|;
    assert DistinctIds(shifted);
    SetPlaceAt(shifted, k, l, d);
    var moved := shifted[k].(parent := l, order := d);
    forall p ensures Count(shifted[k := moved], p) == Count(cards, p) {
      CountSameParents(cards, shifted, p);
      CountUpdate(shifted, k, moved, p);
    }
  }

  /** The intended same-list move keeps every list dense. */
  lemma MoveCardIntendedKeepsDense(cards: seq<Row>, l: Id, s: int, d: int, k: nat, q: Id)
    requires DistinctIds(cards) && k < |cards|
    requires cards[k].parent == l && cards[k].order == s && 0 <= d < Count(cards, l)
    requires Dense(cards, l) && Dense(cards, q)
    ensures Dense(MoveCardIntended(cards, l, l, s, d, cards[k].id).value, q)
  {
    var out := MoveCardIntended(cards, l, l, s, d, cards[k].id).value;
    MoveCardWithin(cards, l, s, d, k);
    assert Count(out, q) == Count(cards, q);
    if q == l {
      WithinMoveDense(cards, out, l, s, d, k);
    } else {
      DenseUntouched(cards, out, q);
    }
  }

  lemma WithinMoveDense(cards: seq<Row>, out: seq<Row>, l: Id, s: int, d: int, k: nat)
    requires k < |cards| && cards[k].parent == l && cards[k].order == s && Dense(cards, l)
    requires 0 <= d < Count(cards, l)
    requires |out| == |cards| && out[k] == cards[k].(order := d)
    requires forall i | 0 <= i < |cards| && i != k ::
               out[i] == cards[i].(order := cards[i].order + WithinDelta(cards[i], l, s, d))
    requires Count(out, l) == Count(cards, l)
    ensures Dense(out, l)
  {
    forall i | 0 <= i < |out| && out[i].parent == l ensures 0 <= out[i].order < Count(out, l) {
      if i != k {
        if i < k { assert cards[i].order != cards[k].order; } else { assert cards[k].order != cards[i].order; }
      }
    }
    forall i, j | 0 <= i < j < |out| && out[i].parent == l && out[j].parent == l
      ensures out[i].order != out[j].order
    {
      if i != k && j != k {
        assert cards[i].order != cards[j].order;
        if i < k { assert cards[i].order != cards[k].order; } else { assert cards[k].order != cards[i].order; }
        if j < k { assert cards[j].order != cards[k].order; } else { assert cards[k].order != cards[j].order; }
      } else if i == k {
        assert cards[k].order != cards[j].order;
      } else {
        assert cards[i].order != cards[k].order;
      }
    }
  }

  /** Four dense cards of list "L". */
  const FourCards := [Row("c0", "L", "", 0), Row("c1", "L", "", 1), Row("c2", "L", "", 2), Row("c3", "L", "", 3)]

  lemma FourCardsDense()
    ensures Dense(FourCards, "L")
  {
    assert forall i | 0 <= i < |FourCards| :: FourCards[i].parent == "L" && FourCards[i].order == i;
    DenseByPosition(FourCards, "L");
  }

  /** Moving c0 from 0 to 2 within "L" as written: the source-list decrement hits c1, c2 and
      c3, and the window shift then hits c2 and c3 again. */
  lemma SameListMoveAsWritten()
    ensures MoveCardAsWritten(FourCards, "L", "L", 0, 2, "c0")
         == Some([Row("c0", "L", "", 2), Row("c1", "L", "", 0), Row("c2", "L", "", 0), Row("c3", "L", "", 1)])
  {
    assert FourCards[0].id == "c0";
    var gap := CloseGap(FourCards, "L", 0);
    assert gap == [Row("c0", "L", "", 0), Row("c1", "L", "", 0), Row("c2", "L", "", 1), Row("c3", "L", "", 2)];
    var shifted := WindowShift(gap, "L", 0, 2);
    assert shifted == [Row("c0", "L", "", 0), Row("c1", "L", "", 0), Row("c2", "L", "", 0), Row("c3", "L", "", 1)];
    assert SetPlace(shifted, "c0", "L", 2)
        == [Row("c0", "L", "", 2), Row("c1", "L", "", 0), Row("c2", "L", "", 0), Row("c3", "L", "", 1)];
  }

  /** The same-list move as written breaks density: from four dense cards it leaves two
      cards at order 0 and none at 3. */
  lemma SameListMoveBreaksDensity()
    ensures Dense(FourCards, "L")
    ensures MoveCardAsWritten(FourCards, "L", "L", 0, 2, "c0").Some?
    ensures !Dense(MoveCardAsWritten(FourCards, "L", "L", 0, 2, "c0").value, "L")
  {
    var out := [Row("c0", "L", "", 2), Row("c1", "L", "", 0), Row("c2", "L", "", 0), Row("c3", "L", "", 1)];
    SameListMoveAsWritten();
    FourCardsDense();
    assert out[1].parent == "L" && out[2].parent == "L" && out[1].order == out[2].order;
  }

  /** A move towards the top breaks density as well: moving c1 from 1 to 0 as written leaves
      c0 and c2 both at order 1 and no card at 3. */
  lemma SameListUpwardMoveBreaksDensity()
    ensures MoveCardAsWritten(FourCards, "L", "L", 1, 0, "c1")
         == Some([Row("c0", "L", "", 1), Row("c1", "L", "", 0), Row("c2", "L", "", 1), Row("c3", "L", "", 2)])
    ensures !Dense(MoveCardAsWritten(FourCards, "L", "L", 1, 0, "c1").value, "L")
  {
    assert FourCards[1].id == "c1";
    var gap := CloseGap(FourCards, "L", 1);
    assert gap == [Row("c0", "L", "", 0), Row("c1", "L", "", 1), Row("c2", "L", "", 1), Row("c3", "L", "", 2)];
    var shifted := WindowShift(gap, "L", 1, 0);
    assert shifted == [Row("c0", "L", "", 1), Row("c1", "L", "", 1), Row("c2", "L", "", 1), Row("c3", "L", "", 2)];
    var out := [Row("c0", "L", "", 1), Row("c1", "L", "", 0), Row("c2", "L", "", 1), Row("c3", "L", "", 2)];
    assert SetPlace(shifted, "c1", "L", 0) == out;
    assert out[0].parent == "L" && out[2].parent == "L" && out[0].order == out[2].order;
  }

  /** The same move done as intended: c1 and c2 move up, c0 lands at 2 and c3 stays at 3. */
  lemma SameListMoveIntendedExample()
    ensures MoveCardIntended(FourCards, "L", "L", 0, 2, "c0")
         == Some([Row("c0", "L", "", 2), Row("c1", "L", "", 0), Row("c2", "L", "", 1), Row("c3", "L", "", 3)])
  {
    assert FourCards[0].id == "c0";
    var shifted := WindowShift(FourCards, "L", 0, 2);
    assert shifted == [Row("c0", "L", "", 0), Row("c1", "L", "", 0), Row("c2", "L", "", 1), Row("c3", "L", "", 3)];
    assert SetPlace(shifted, "c0", "L", 2)
        == [Row("c0", "L", "", 2), Row("c1", "L", "", 0), Row("c2", "L", "", 1), Row("c3", "L", "", 3)];
  }

  // ---------------------------------------------------------------------------------------
  // The whole store

  /** What a change must satisfy for the server to keep the store dense; the server checks
      none of it. A deleted list must belong to the board, a deleted card to the named list,
      and a move must go to another list, from the card's own list and position, to a
      position at most the destination's card count. */
  predicate Conforms(db: Db, boardId: Id, c: Change)
  {
    match c
    case DeleteList(listId) =>
      forall i | 0 <= i < |db.lists| && db.lists[i].id == listId :: db.lists[i].parent == boardId
    case DeleteCard(listId, cardId) =>
      forall i | 0 <= i < |db.cards| && db.cards[i].id == cardId :: db.cards[i].parent == listId
    case MoveCard(src, dst, s, d, cardId) =>
      && src != dst && 0 <= d <= Count(db.cards, dst)
      && forall i | 0 <= i < |db.cards| && db.cards[i].id == cardId ::
           db.cards[i].parent == src && db.cards[i].order == s
    case _ => true
  }

  /** Every change of the batch conforms in the store that the changes before it leave. */
  ghost predicate ConformingBatch(db: Db, boardId: Id, changes: seq<Change>)
    decreases |changes|
  {
    changes == [] ||
    (Conforms(db, boardId, changes[0]) &&
     (Step(db, boardId, changes[0]).Some? ==> ConformingBatch(Step(db, boardId, changes[0]).value, boardId, changes[1..])))
  }

  /** A conforming change keeps a dense, well-formed store dense. */
  lemma StepKeepsDense(db: Db, boardId: Id, c: Change)
    requires WellFormed(db) && DenseStore(db) && Conforms(db, boardId, c) && Step(db, boardId, c).Some?
    ensures DenseStore(Step(db, boardId, c).value)
  {
    var out := Step(db, boardId, c).value;
    match c
    case AddList(title) =>
      forall p ensures Dense(out.lists, p) {
        CreateLastKeepsDense(db.lists, GeneratedId(db.nextId), boardId, title, p);
      }
    case AddCard(listId, content) =>
      forall p ensures Dense(out.cards, p) {
        CreateLastKeepsDense(db.cards, GeneratedId(db.nextId), listId, content, p);
      }
    case DeleteList(listId) =>
      forall p ensures Dense(out.lists, p) {
        DeleteKeepsDense(db.lists, listId, boardId, p);
      }
    case DeleteCard(listId, cardId) =>
      forall p ensures Dense(out.cards, p) {
        DeleteKeepsDense(db.cards, cardId, listId, p);
      }
    case UpdateListTitle(listId, newTitle) =>
      forall p ensures Dense(out.lists, p) {
        UpdateTextKeepsDense(db.lists, listId, newTitle, p);
      }
    case UpdateCardContent(_, cardId, newContent) =>
      forall p ensures Dense(out.cards, p) {
        UpdateTextKeepsDense(db.cards, cardId, newContent, p);
      }
    case ReorderList(s, d) =>
      forall p ensures Dense(out.lists, p) {
        ReorderKeepsDense(db.lists, boardId, s, d, p);
      }
    case MoveCard(src, dst, s, d, cardId) =>
      var k :| 0 <= k < |db.cards| && db.cards[k].id == cardId;
      forall p ensures Dense(out.cards, p) {
        CrossMoveKeepsDense(db.cards, src, dst, s, d, k, p);
      }
    case Unrecognised(_) =>
  }

  lemma {:induction false} RunBatchKeepsDense(db: Db, boardId: Id, changes: seq<Change>)
    requires WellFormed(db) && DenseStore(db) && ConformingBatch(db, boardId, changes)
    requires RunBatch(db, boardId, changes).Some?
    ensures DenseStore(RunBatch(db, boardId, changes).value)
    decreases |changes|
  {
    if changes != [] {
      StepKeepsWellFormed(db, boardId, changes[0]);
      StepKeepsDense(db, boardId, changes[0]);
      RunBatchKeepsDense(Step(db, boardId, changes[0]).value, boardId, changes[1..]);
    }
  }

  /** The headline invariant: a commit of a conforming batch, applied or not, leaves a dense
      well-formed store dense. */
  lemma CommitKeepsDense(db: Db, userId: Id, boardId: Id, changes: seq<Change>, current: int)
    requires WellFormed(db) && DenseStore(db) && ConformingBatch(db, boardId, changes)
    ensures DenseStore(Commit(db, userId, boardId, changes, current).1)
  {
    if Commit(db, userId, boardId, changes, current).0.Applied? {
      RunBatchKeepsDense(db, boardId, changes);
    }
  }
}

=== FILE: board_router.dfy ===
/** The server's `applyChanges` mutation: the ownership and version guard, the eight change
    kinds applied one after another inside one transaction, the counter bump and the fanout
    to the other tabs watching the board. */
module BoardRouter {
  import opened Wire
  import opened Ordering
  import opened JsArray
  import Sse

  /** A board record: its owner, its name and its optimistic-concurrency counter. */
  datatype BoardRow = BoardRow(userId: Id, name: string, actionCounter: nat)

  /** The store: board records by id, the list table (parent = board id, text = title), the
      card table (parent = list id, text = content), and the source of fresh record ids. */
  datatype Db = Db(boards: map<Id, BoardRow>, lists: seq<Row>, cards: seq<Row>, nextId: nat)

  /** The reply of `applyChanges`: the new counter, or the error code it throws. */
  datatype Response =
    | Applied(newActionCounter: nat)
    | BadRequest
    | Forbidden
    | Conflict
    | InternalServerError

  /** The id the store gives the `n`-th record it creates; ids of different lengths differ. */
  function GeneratedId(n: nat): (id: Id)
    ensures |id| == n + 1
  {
    seq(n + 1, _ => 'c')
  }

  predicate IdsBelow(rows: seq<Row>, bound: nat)
  {
    forall i | 0 <= i < |rows| :: |rows[i].id| <= bound
  }

  /** Primary keys are unique, and every id in the store was issued before `nextId`. */
  predicate WellFormed(db: Db)
  {
    && DistinctIds(db.lists) && DistinctIds(db.cards)
    && IdsBelow(db.lists, db.nextId) && IdsBelow(db.cards, db.nextId)
    && forall b | b in db.boards :: |b| <= db.nextId
  }

  /** The density invariant over the whole store: every board's lists and every list's
      cards carry the orders `0..n-1`. */
  ghost predicate DenseStore(db: Db)
  {
    (forall p :: Dense(db.lists, p)) && (forall p :: Dense(db.cards, p))
  }

  // ---------------------------------------------------------------------------------------
  // The change kinds, as the transaction body performs them

  /** `create({ data: { …, order: count({ where: { <parent> } }) } })`: the new row goes
      after the others, at the next free position of its parent. */
  function CreateLast(rows: seq<Row>, id: Id, parent: Id, text: string): (r: seq<Row>)
    ensures |r| == |rows| + 1 && r[..|rows|] == rows
    ensures r[|rows|].id == id && r[|rows|].parent == parent && r[|rows|].text == text
    ensures r[|rows|].order == Count(rows, parent) && Count(r, parent) == Count(rows, parent) + 1
  {
    var row := Row(id, parent, text, Count(rows, parent));
    CountAppend(rows, row, parent);
    rows + [row]
  }

  /** `delete({ where: { id } })`, which throws when there is no such row, followed by the
      renumbering of `parent`'s remaining rows in ascending order. */
  function DeleteAndRenumber(rows: seq<Row>, id: Id, parent: Id): (r: Option<seq<Row>>)
    ensures r.Some? <==> HasId(rows, id)
    ensures r.Some? ==> |r.value| <= |rows| && forall i | 0 <= i < |r.value| :: r.value[i].id != id
  {
    if !HasId(rows, id) then None
    else
      var rest := WithoutId(rows, id);
      WithoutIdMembers(rows, id);
      assert forall i | 0 <= i < |rest| :: rest[i] in rest;
      Some(Reindexed(rest, SortByOrder(Siblings(rest, parent))))
  }

  /** `update({ where: { id }, data: { <text> } })`, which throws when there is no such row. */
  function UpdateText(rows: seq<Row>, id: Id, text: string): (r: Option<seq<Row>>)
    ensures r.Some? <==> HasId(rows, id)
    ensures r.Some? ==> |r.value| == |rows|
    ensures r.Some? ==> forall i | 0 <= i < |rows| ::
              && r.value[i].(text := rows[i].text) == rows[i]
              && r.value[i].text == if rows[i].id == id then text else rows[i].text
  {
    if HasId(rows, id) then Some(SetText(rows, id, text)) else None
  }

  /** REORDER_LIST: nothing to do when the indices are equal; otherwise the two splices on
      the board's lists in ascending order, then the renumbering. When the first splice
      removes nothing, the second inserts `undefined` and reading its `id` throws. */
  function ReorderLists(lists: seq<Row>, boardId: Id, sourceIndex: int, destinationIndex: int): (r: Option<seq<Row>>)
    ensures sourceIndex == destinationIndex ==> r == Some(lists)
    ensures r.None? <==> sourceIndex != destinationIndex && !(0 < Count(lists, boardId) && sourceIndex < Count(lists, boardId))
    ensures r.Some? ==> |r.value| == |lists|
    ensures r.Some? ==> forall i | 0 <= i < |lists| ::
              r.value[i].(order := lists[i].order) == lists[i]
  {
    var sorted := SortByOrder(Siblings(lists, boardId));
    if sourceIndex == destinationIndex then Some(lists)
    else
      var (moved, rest) := RemoveAt(sorted, sourceIndex);
      if moved.None? then None
      else Some(Reindexed(lists, InsertAt(rest, destinationIndex, moved.value)))
  }

  /** The first `updateMany` of MOVE_CARD: the source list's cards after `sourceIndex` move up one. */
  function CloseGap(cards: seq<Row>, sourceListId: Id, sourceIndex: int): (r: seq<Row>)
    ensures |r| == |cards|
    ensures forall i | 0 <= i < |cards| :: r[i].(order := cards[i].order) == cards[i]
    ensures forall i | 0 <= i < |cards| ::
              r[i].order == if cards[i].parent == sourceListId && cards[i].order > sourceIndex
                            then cards[i].order - 1 else cards[i].order
  {
    UpdateMany(cards, sourceListId, From(sourceIndex + 1), -1)
  }

  /** Cross-list MOVE_CARD before the card itself is updated: close the gap in the source,
      open one at `destinationIndex` in the destination. */
  function CrossListShift(cards: seq<Row>, sourceListId: Id, destinationListId: Id,
                          sourceIndex: int, destinationIndex: int): (r: seq<Row>)
    ensures |r| == |cards|
    ensures forall i | 0 <= i < |cards| :: r[i].(order := cards[i].order) == cards[i]
    ensures sourceListId != destinationListId ==> forall i | 0 <= i < |cards| ::
              r[i].order == if cards[i].parent == sourceListId && cards[i].order > sourceIndex then cards[i].order - 1
                            else if cards[i].parent == destinationListId && cards[i].order >= destinationIndex then cards[i].order + 1
                            else cards[i].order
  {
    UpdateMany(CloseGap(cards, sourceListId, sourceIndex), destinationListId, From(destinationIndex), 1)
  }

  /** The same-list window shift: the cards between the two positions move one step
      towards the vacated slot. */
  function WindowShift(cards: seq<Row>, listId: Id, sourceIndex: int, destinationIndex: int): (r: seq<Row>)
    ensures |r| == |cards|
    ensures forall i | 0 <= i < |cards| :: r[i].(order := cards[i].order) == cards[i]
    ensures forall i | 0 <= i < |cards| ::
              r[i].order == if cards[i].parent == listId && sourceIndex < cards[i].order <= destinationIndex then cards[i].order - 1
                            else if cards[i].parent == listId && destinationIndex <= cards[i].order < sourceIndex then cards[i].order + 1
                            else cards[i].order
  {
    if sourceIndex < destinationIndex then UpdateMany(cards, listId, Between(sourceIndex + 1, destinationIndex + 1), -1)
    else if sourceIndex > destinationIndex then UpdateMany(cards, listId, Between(destinationIndex, sourceIndex), 1)
    else cards
  }

  /** MOVE_CARD as the transaction body performs it: `findUnique` of the card (throws when it
      is missing), the source-list `updateMany`, then for a same-list move a SECOND shift of
      the same list, and finally the card's new list and order. */
  function MoveCardAsWritten(cards: seq<Row>, sourceListId: Id, destinationListId: Id,
                             sourceIndex: int, destinationIndex: int, cardId: Id): (r: Option<seq<Row>>)
    ensures r.Some? <==> HasId(cards, cardId)
    ensures r.Some? ==> |r.value| == |cards|
    ensures r.Some? ==> forall i | 0 <= i < |cards| ::
              r.value[i].(parent := cards[i].parent, order := cards[i].order) == cards[i]
    ensures r.Some? ==> forall i | 0 <= i < |cards| && cards[i].id == cardId ::
              r.value[i].parent == destinationListId && r.value[i].order == destinationIndex
    ensures r.Some? ==> forall i | 0 <= i < |cards| && cards[i].id != cardId
                                   && cards[i].parent != sourceListId && cards[i].parent != destinationListId ::
              r.value[i] == cards[i]
  {
    if !HasId(cards, cardId) then None
    else
      var shifted :=
        if sourceListId != destinationListId
        then CrossListShift(cards, sourceListId, destinationListId, sourceIndex, destinationIndex)
        else WindowShift(CloseGap(cards, sourceListId, sourceIndex), sourceListId, sourceIndex, destinationIndex);
      Some(SetPlace(shifted, cardId, destinationListId, destinationIndex))
  }

  /** MOVE_CARD as intended: a same-list move applies the window shift alone. */
  function MoveCardIntended(cards: seq<Row>, sourceListId: Id, destinationListId: Id,
                            sourceIndex: int, destinationIndex: int, cardId: Id): (r: Option<seq<Row>>)
    ensures r.Some? <==> HasId(cards, cardId)
    ensures r.Some? ==> |r.value| == |cards|
    ensures r.Some? ==> forall i | 0 <= i < |cards| ::
              r.value[i].(parent := cards[i].parent, order := cards[i].order) == cards[i]
    ensures r.Some? ==> forall i | 0 <= i < |cards| && cards[i].id == cardId ::
              r.value[i].parent == destinationListId && r.value[i].order == destinationIndex
    ensures r.Some? ==> forall i | 0 <= i < |cards| && cards[i].id != cardId
                                   && cards[i].parent != sourceListId && cards[i].parent != destinationListId ::
              r.value[i] == cards[i]
  {
    if !HasId(cards, cardId) then None
    else
      var shifted :=
        if sourceListId != destinationListId
        then CrossListShift(cards, sourceListId, destinationListId, sourceIndex, destinationIndex)
        else WindowShift(cards, sourceListId, sourceIndex, destinationIndex);
      Some(SetPlace(shifted, cardId, destinationListId, destinationIndex))
  }

  /** One iteration of the transaction's loop: the store after the change, or `None` when
      the change throws (which aborts the transaction). */
  function Step(db: Db, boardId: Id, c: Change): (r: Option<Db>)
    ensures r.Some? ==> r.value.boards == db.boards && r.value.nextId >= db.nextId
  {
    match c
    case AddList(title) =>
      Some(db.(lists := CreateLast(db.lists, GeneratedId(db.nextId), boardId, title), nextId := db.nextId + 1))
    case DeleteList(listId) =>
      var r := DeleteAndRenumber(db.lists, listId, boardId);
      if r.None? then None else Some(db.(lists := r.value))
    case UpdateListTitle(listId, newTitle) =>
      var r := UpdateText(db.lists, listId, newTitle);
      if r.None? then None else Some(db.(lists := r.value))
    case ReorderList(sourceIndex, destinationIndex) =>
      var r := ReorderLists(db.lists, boardId, sourceIndex, destinationIndex);
      if r.None? then None else Some(db.(lists := r.value))
    case AddCard(listId, content) =>
      Some(db.(cards := CreateLast(db.cards, GeneratedId(db.nextId), listId, content), nextId := db.nextId + 1))
    case UpdateCardContent(_, cardId, newContent) =>
      var r := UpdateText(db.cards, cardId, newContent);
      if r.None? then None else Some(db.(cards := r.value))
    case DeleteCard(listId, cardId) =>
      var r := DeleteAndRenumber(db.cards, cardId, listId);
      if r.None? then None else Some(db.(cards := r.value))
    case MoveCard(sourceListId, destinationListId, sourceIndex, destinationIndex, cardId) =>
      var r := MoveCardAsWritten(db.cards, sourceListId, destinationListId, sourceIndex, destinationIndex, cardId);
      if r.None? then None else Some(db.(cards := r.value))
    case Unrecognised(_) =>
      None
  }

  /** The transaction's loop over the batch: stops at the first change that throws. */
  function RunBatch(db: Db, boardId: Id, changes: seq<Change>): (r: Option<Db>)
    ensures r.Some? ==> r.value.boards == db.boards && r.value.nextId >= db.nextId
    decreases |changes|
  {
    if changes == [] then Some(db)
    else
      match Step(db, boardId, changes[0])
      case None => None
      case Some(next) => RunBatch(next, boardId, changes[1..])
  }

  predicate AllRecognised(changes: seq<Change>)
  {
    forall i | 0 <= i < |changes| :: !changes[i].Unrecognised?
  }

  predicate Owns(db: Db, userId: Id, boardId: Id)
  {
    boardId in db.boards && db.boards[boardId].userId == userId
  }

  /** The whole mutation on the store: input validation, ownership, the version check, then
      the transaction, which either commits every change plus the counter bump or leaves the
      store as it was. */
  function Commit(db: Db, userId: Id, boardId: Id, changes: seq<Change>, currentActionCounter: int): (r: (Response, Db))
    ensures !r.0.Applied? ==> r.1 == db
    ensures r.0.Applied? ==>
              && Owns(db, userId, boardId)
              && db.boards[boardId].actionCounter == currentActionCounter
              && r.0.newActionCounter == currentActionCounter + 1
              && r.1.boards == db.boards[boardId := db.boards[boardId].(actionCounter := currentActionCounter + 1)]
    ensures r.0.Applied? ==>
              && RunBatch(db, boardId, changes).Some?
              && r.1.lists == RunBatch(db, boardId, changes).value.lists
              && r.1.cards == RunBatch(db, boardId, changes).value.cards
              && r.1.nextId == RunBatch(db, boardId, changes).value.nextId
  {
    if !AllRecognised(changes) then (BadRequest, db)
    else if !Owns(db, userId, boardId) then (Forbidden, db)
    else if db.boards[boardId].actionCounter != currentActionCounter then (Conflict, db)
    else
      match RunBatch(db, boardId, changes)
      case None => (InternalServerError, db)
      case Some(after) =>
        var n := db.boards[boardId].actionCounter + 1;
        (Applied(n), after.(boards := after.boards[boardId := after.boards[boardId].(actionCounter := n)]))
  }

  /** The message published to the other tabs: `JSON.stringify({ type: "BOARD_UPDATED", board: n })`. */
  function BoardUpdated(n: nat): (r: string)
    ensures |r| > |UpdatedPrefix| + 1 && r[..|UpdatedPrefix|] == UpdatedPrefix && r[|r| - 1] == '}'
    ensures AllDigits(r[|UpdatedPrefix|..|r| - 1]) && DigitsValue(r[|UpdatedPrefix|..|r| - 1]) == n
  {
    DecimalRoundTrip(n);
    var r := UpdatedPrefix + Decimal(n) + "}";
    assert r[|UpdatedPrefix|..|r| - 1] == Decimal(n);
    r
  }

  const UpdatedPrefix: string := "{\"type\":\"BOARD_UPDATED\",\"board\":"

  /** `String(n)` for a non-negative integer: its decimal digits, without leading zeros. */
  function Decimal(n: nat): (r: string)
    ensures |r| >= 1 && AllDigits(r)
    ensures r[0] == '0' ==> n == 0
  {
    if n < 10 then [Digit(n)] else Decimal(n / 10) + [Digit(n % 10)]
  }

  function Digit(d: nat): (c: char)
    requires d < 10
    ensures '0' <= c <= '9' && c as int - '0' as int == d
  {
    ('0' as int + d) as char
  }

  predicate AllDigits(s: string)
  {
    forall i | 0 <= i < |s| :: '0' <= s[i] <= '9'
  }

  /** The number a string of decimal digits denotes: the reader of the message. */
  function DigitsValue(s: string): nat
    requires AllDigits(s)
  {
    if s == [] then 0 else DigitsValue(s[..|s| - 1]) * 10 + (s[|s| - 1] as int - '0' as int)
  }

  /** Reading the digits back gives the number that was written. */
  lemma {:induction false} DecimalRoundTrip(n: nat)
    ensures DigitsValue(Decimal(n)) == n
  {
    if n >= 10 {
      DecimalRoundTrip(n / 10);
      assert Decimal(n)[..|Decimal(n)| - 1] == Decimal(n / 10);
    }
  }

  // ---------------------------------------------------------------------------------------
  // The guard and the counter

  /** Rejections are decided in order: an unknown change kind, then ownership, then the
      version; each leaves the store exactly as it was. */
  lemma GuardOutcomes(db: Db, userId: Id, boardId: Id, changes: seq<Change>, current: int)
    ensures !AllRecognised(changes) ==> Commit(db, userId, boardId, changes, current) == (BadRequest, db)
    ensures AllRecognised(changes) && !Owns(db, userId, boardId)
            ==> Commit(db, userId, boardId, changes, current) == (Forbidden, db)
    ensures AllRecognised(changes) && Owns(db, userId, boardId) && db.boards[boardId].actionCounter != current
            ==> Commit(db, userId, boardId, changes, current) == (Conflict, db)
    ensures Commit(db, userId, boardId, changes, current).0.Applied?
            <==> AllRecognised(changes) && Owns(db, userId, boardId)
                 && db.boards[boardId].actionCounter == current && RunBatch(db, boardId, changes).Some?
  {
  }

  /** Running a batch is running a prefix of it and then the rest. */
  lemma {:induction false} RunBatchSplit(db: Db, boardId: Id, changes: seq<Change>, i: nat)
    requires i <= |changes|
    decreases i
    ensures RunBatch(db, boardId, changes)
         == match RunBatch(db, boardId, changes[..i])
            case None => None
            case Some(mid) => RunBatch(mid, boardId, changes[i..])
  {
    if i > 0 {
      assert changes[..i][0] == changes[0];
      assert changes[..i][1..] == changes[1..][..i - 1];
      assert changes[i..] == changes[1..][i - 1..];
      match Step(db, boardId, changes[0])
      case None =>
      case Some(next) => RunBatchSplit(next, boardId, changes[1..], i - 1);
    } else {
      assert changes[..0] == [] && changes[0..] == changes;
    }
  }

  /** One change that throws aborts the whole batch: nothing persists, the counter is
      unchanged and the reply is INTERNAL_SERVER_ERROR. */
  lemma FailingChangeAbortsBatch(db: Db, userId: Id, boardId: Id, changes: seq<Change>, current: int, i: nat, mid: Db)
    requires AllRecognised(changes) && Owns(db, userId, boardId) && db.boards[boardId].actionCounter == current
    requires i < |changes| && RunBatch(db, boardId, changes[..i]) == Some(mid)
    requires Step(mid, boardId, changes[i]).None?
    ensures Commit(db, userId, boardId, changes, current) == (InternalServerError, db)
  {
    RunBatchSplit(db, boardId, changes, i);
    assert changes[i..][0] == changes[i];
  }

  /** Deleting, updating or moving a row that is not in its table throws, as does a change of
      an unknown kind; adding never throws. */
  lemma MissingRowThrows(db: Db, boardId: Id, c: Change)
    ensures (c.DeleteList? || c.UpdateListTitle?) && !HasId(db.lists, c.listId) ==> Step(db, boardId, c).None?
    ensures (c.DeleteCard? || c.UpdateCardContent? || c.MoveCard?) && !HasId(db.cards, c.cardId)
            ==> Step(db, boardId, c).None?
    ensures c.Unrecognised? ==> Step(db, boardId, c).None?
    ensures c.AddList? || c.AddCard? ==> Step(db, boardId, c).Some?
  {
  }

  /** REORDER_LIST with equal indices leaves the store exactly as it was. */
  lemma ReorderSameIndexIsNoOp(db: Db, boardId: Id, index: int)
    ensures Step(db, boardId, ReorderList(index, index)) == Some(db)
  {
  }

  /** Once a batch is applied with expected counter `k`, any later batch that still expects
      `k` is rejected with CONFLICT. */
  lemma StaleCounterConflicts(db: Db, userId: Id, boardId: Id, first: seq<Change>, second: seq<Change>, k: int)
    requires Commit(db, userId, boardId, first, k).0.Applied?
    requires AllRecognised(second)
    ensures Commit(Commit(db, userId, boardId, first, k).1, userId, boardId, second, k) == (Conflict, Commit(db, userId, boardId, first, k).1)
  {
  }

  // ---------------------------------------------------------------------------------------
  // Well-formedness is kept by every change

  lemma SameIdsKeepWellFormedRows(a: seq<Row>, b: seq<Row>, bound: nat)
    requires DistinctIds(a) && IdsBelow(a, bound)
    requires |a| == |b| && forall i | 0 <= i < |a| :: a[i].id == b[i].id
    ensures DistinctIds(b) && IdsBelow(b, bound)
  {
  }

  lemma FreshAppend(rows: seq<Row>, r: Row, bound: nat)
    requires DistinctIds(rows) && IdsBelow(rows, bound) && |r.id| == bound + 1
    ensures DistinctIds(rows + [r]) && IdsBelow(rows + [r], bound + 1)
  {
    var out := rows + [r];
    assert forall i | 0 <= i < |rows| :: out[i] == rows[i];
  }

  lemma DeleteKeepsWellFormedRows(rows: seq<Row>, id: Id, parent: Id, bound: nat)
    requires DistinctIds(rows) && IdsBelow(rows, bound) && HasId(rows, id)
    ensures DistinctIds(DeleteAndRenumber(rows, id, parent).value)
    ensures IdsBelow(DeleteAndRenumber(rows, id, parent).value, bound)
  {
    var rest := WithoutId(rows, id);
    WithoutIdDistinct(rows, id);
    WithoutIdMembers(rows, id);
    assert IdsBelow(rest, bound) by {
      forall i | 0 <= i < |rest| ensures |rest[i].id| <= bound {
        assert rest[i] in rows;
      }
    }
    SameIdsKeepWellFormedRows(rest, Reindexed(rest, SortByOrder(Siblings(rest, parent))), bound);
  }

  lemma IdsBelowGrow(rows: seq<Row>, bound: nat, bound': nat)
    requires IdsBelow(rows, bound) && bound <= bound'
    ensures IdsBelow(rows, bound')
  {
  }

  /** Every change that does not throw keeps the store well formed. */
  lemma StepKeepsWellFormed(db: Db, boardId: Id, c: Change)
    requires WellFormed(db) && Step(db, boardId, c).Some?
    ensures WellFormed(Step(db, boardId, c).value)
  {
    match c
    case AddList(title) => AddListKeepsWellFormed(db, boardId, title);
    case AddCard(listId, content) => AddCardKeepsWellFormed(db, boardId, listId, content);
    case DeleteList(listId) => DeleteListKeepsWellFormed(db, boardId, listId);
    case DeleteCard(listId, cardId) => DeleteCardKeepsWellFormed(db, boardId, listId, cardId);
    case UpdateListTitle(listId, newTitle) => UpdateListTitleKeepsWellFormed(db, boardId, listId, newTitle);
    case UpdateCardContent(listId, cardId, newContent) =>
      UpdateCardContentKeepsWellFormed(db, boardId, listId, cardId, newContent);
    case ReorderList(s, d) => ReorderListKeepsWellFormed(db, boardId, s, d);
    case MoveCard(src, dst, s, d, cardId) => MoveCardKeepsWellFormed(db, boardId, src, dst, s, d, cardId);
    case Unrecognised(_) =>
  }

  lemma AddListKeepsWellFormed(db: Db, boardId: Id, title: string)
    requires WellFormed(db)
    ensures WellFormed(Step(db, boardId, AddList(title)).value)
  {
    FreshAppend(db.lists, Row(GeneratedId(db.nextId), boardId, title, Count(db.lists, boardId)), db.nextId);
    IdsBelowGrow(db.cards, db.nextId, db.nextId + 1);
  }

  lemma AddCardKeepsWellFormed(db: Db, boardId: Id, listId: Id, content: string)
    requires WellFormed(db)
    ensures WellFormed(Step(db, boardId, AddCard(listId, content)).value)
  {
    FreshAppend(db.cards, Row(GeneratedId(db.nextId), listId, content, Count(db.cards, listId)), db.nextId);
    IdsBelowGrow(db.lists, db.nextId, db.nextId + 1);
  }

  lemma DeleteListKeepsWellFormed(db: Db, boardId: Id, listId: Id)
    requires WellFormed(db) && Step(db, boardId, DeleteList(listId)).Some?
    ensures WellFormed(Step(db, boardId, DeleteList(listId)).value)
  {
    DeleteKeepsWellFormedRows(db.lists, listId, boardId, db.nextId);
  }

  lemma DeleteCardKeepsWellFormed(db: Db, boardId: Id, listId: Id, cardId: Id)
    requires WellFormed(db) && Step(db, boardId, DeleteCard(listId, cardId)).Some?
    ensures WellFormed(Step(db, boardId, DeleteCard(listId, cardId)).value)
  {
    DeleteKeepsWellFormedRows(db.cards, cardId, listId, db.nextId);
  }

  lemma UpdateListTitleKeepsWellFormed(db: Db, boardId: Id, listId: Id, newTitle: string)
    requires WellFormed(db) && Step(db, boardId, UpdateListTitle(listId, newTitle)).Some?
    ensures WellFormed(Step(db, boardId, UpdateListTitle(listId, newTitle)).value)
  {
    SameIdsKeepWellFormedRows(db.lists, SetText(db.lists, listId, newTitle), db.nextId);
  }

  lemma UpdateCardContentKeepsWellFormed(db: Db, boardId: Id, listId: Id, cardId: Id, newContent: string)
    requires WellFormed(db) && Step(db, boardId, UpdateCardContent(listId, cardId, newContent)).Some?
    ensures WellFormed(Step(db, boardId, UpdateCardContent(listId, cardId, newContent)).value)
  {
    SameIdsKeepWellFormedRows(db.cards, SetText(db.cards, cardId, newContent), db.nextId);
  }

  lemma ReorderListKeepsWellFormed(db: Db, boardId: Id, s: int, d: int)
    requires WellFormed(db) && Step(db, boardId, ReorderList(s, d)).Some?
    ensures WellFormed(Step(db, boardId, ReorderList(s, d)).value)
  {
    ReorderKeepsIds(db.lists, boardId, s, d);
    SameIdsKeepWellFormedRows(db.lists, ReorderLists(db.lists, boardId, s, d).value, db.nextId);
  }

  lemma MoveCardKeepsWellFormed(db: Db, boardId: Id, src: Id, dst: Id, s: int, d: int, cardId: Id)
    requires WellFormed(db) && Step(db, boardId, MoveCard(src, dst, s, d, cardId)).Some?
    ensures WellFormed(Step(db, boardId, MoveCard(src, dst, s, d, cardId)).value)
  {
    SameIdsKeepWellFormedRows(db.cards, MoveCardAsWritten(db.cards, src, dst, s, d, cardId).value, db.nextId);
  }

  lemma ReorderKeepsIds(lists: seq<Row>, boardId: Id, s: int, d: int)
    requires ReorderLists(lists, boardId, s, d).Some?
    ensures var out := ReorderLists(lists, boardId, s, d).value;
            |out| == |lists| && forall i | 0 <= i < |lists| :: out[i].id == lists[i].id && out[i].parent == lists[i].parent
  {
  }

  lemma {:induction false} RunBatchKeepsWellFormed(db: Db, boardId: Id, changes: seq<Change>)
    requires WellFormed(db) && RunBatch(db, boardId, changes).Some?
    ensures WellFormed(RunBatch(db, boardId, changes).value)
    decreases |changes|
  {
    if changes != [] {
      StepKeepsWellFormed(db, boardId, changes[0]);
      RunBatchKeepsWellFormed(Step(db, boardId, changes[0]).value, boardId, changes[1..]);
    }
  }

  /** A commit, applied or not, leaves a well-formed store well formed. */
  lemma CommitKeepsWellFormed(db: Db, userId: Id, boardId: Id, changes: seq<Change>, current: int)
    requires WellFormed(db)
    ensures WellFormed(Commit(db, userId, boardId, changes, current).1)
  {
    if Commit(db, userId, boardId, changes, current).0.Applied? {
      RunBatchKeepsWellFormed(db, boardId, changes);
    }
  }

  // ---------------------------------------------------------------------------------------
  // The store as the procedures change it

  /** The database behind the board router: the three tables and the id source, changed in
      place by `addBoard` and by the transaction of `applyChanges`. */
  class Store {
    var boards: map<Id, BoardRow>
    var lists: seq<Row>
    var cards: seq<Row>
    var nextId: nat

    function Snapshot(): Db
      reads this
    {
      Db(boards, lists, cards, nextId)
    }

    predicate Valid()
      reads this
    {
      WellFormed(Snapshot())
    }

    constructor ()
      ensures Valid()
      ensures boards == map[] && lists == [] && cards == [] && nextId == 0
    {
      boards, lists, cards, nextId := map[], [], [], 0;
    }

    /** `addBoard`: a name of 1 to 50 characters creates a board owned by the caller with its
        counter at 0 under a fresh id; any other name is refused and nothing changes. */
    method AddBoard(userId: Id, name: string) returns (boardId: Option<Id>)
      requires Valid()
      modifies this
      ensures Valid()
      ensures !(1 <= |name| <= 50) ==> boardId.None? && Snapshot() == old(Snapshot())
      ensures 1 <= |name| <= 50 ==>
                && boardId.Some? && boardId.value !in old(boards)
                && boards == old(boards)[boardId.value := BoardRow(userId, name, 0)]
                && lists == old(lists) && cards == old(cards)
    {
      if !(1 <= |name| <= 50) {
        return None;
      }
      var id := GeneratedId(nextId);
      boards := boards[id := BoardRow(userId, name, 0)];
      nextId := nextId + 1;
      boardId := Some(id);
    }

    /** One pass of the transaction's loop: the change's queries, performed on the tables in
        place. `false` means the change threw, with the tables left part-way. */
    method ApplyChange(boardId: Id, c: Change) returns (ok: bool)
      modifies this
      ensures Step(old(Snapshot()), boardId, c) == if ok then Some(Snapshot()) else None
    {
      match c
      case AddList(title) => ok := ApplyAddList(boardId, title);
      case DeleteList(listId) => ok := ApplyDeleteList(boardId, listId);
      case UpdateListTitle(listId, newTitle) => ok := ApplyUpdateListTitle(boardId, listId, newTitle);
      case ReorderList(s, d) => ok := ApplyReorderList(boardId, s, d);
      case AddCard(listId, content) => ok := ApplyAddCard(boardId, listId, content);
      case UpdateCardContent(listId, cardId, newContent) =>
        ok := ApplyUpdateCardContent(boardId, listId, cardId, newContent);
      case DeleteCard(listId, cardId) => ok := ApplyDeleteCard(boardId, listId, cardId);
      case MoveCard(src, dst, s, d, cardId) => ok := ApplyMoveCard(boardId, src, dst, s, d, cardId);
      case Unrecognised(_) => ok := false;
    }

    /** ADD_LIST: count the board's lists, create the list with that order. */
    method ApplyAddList(boardId: Id, title: string) returns (ok: bool)
      modifies this
      ensures Step(old(Snapshot()), boardId, AddList(title)) == if ok then Some(Snapshot()) else None
    {
      var order := Count(lists, boardId);
      lists := lists + [Row(GeneratedId(nextId), boardId, title, order)];
      nextId := nextId + 1;
      ok := true;
    }

    /** DELETE_LIST: delete the list (throws when missing), then renumber the board's lists. */
    method ApplyDeleteList(boardId: Id, listId: Id) returns (ok: bool)
      modifies this
      ensures Step(old(Snapshot()), boardId, DeleteList(listId)) == if ok then Some(Snapshot()) else None
    {
      if !HasId(lists, listId) {
        return false;
      }
      lists := WithoutId(lists, listId);
      var remaining := SortByOrder(Siblings(lists, boardId));
      lists := Renumber(lists, remaining);
      ok := true;
    }

    /** UPDATE_LIST_TITLE: update by id (throws when missing). */
    method ApplyUpdateListTitle(boardId: Id, listId: Id, newTitle: string) returns (ok: bool)
      modifies this
      ensures Step(old(Snapshot()), boardId, UpdateListTitle(listId, newTitle)) == if ok then Some(Snapshot()) else None
    {
      if !HasId(lists, listId) {
        return false;
      }
      lists := SetText(lists, listId, newTitle);
      ok := true;
    }

    /** REORDER_LIST: fetch the board's lists in ascending order; unless the indices are
        equal, splice one out and back in and write every list's new index. */
    method ApplyReorderList(boardId: Id, sourceIndex: int, destinationIndex: int) returns (ok: bool)
      modifies this
      ensures Step(old(Snapshot()), boardId, ReorderList(sourceIndex, destinationIndex)) == if ok then Some(Snapshot()) else None
    {
      var sorted := SortByOrder(Siblings(lists, boardId));
      if sourceIndex == destinationIndex {
        return true;
      }
      var (moved, rest) := RemoveAt(sorted, sourceIndex);
      if moved.None? {
        return false;
      }
      lists := Renumber(lists, InsertAt(rest, destinationIndex, moved.value));
      ok := true;
    }

    /** ADD_CARD: count the list's cards, create the card with that order. */
    method ApplyAddCard(boardId: Id, listId: Id, content: string) returns (ok: bool)
      modifies this
      ensures Step(old(Snapshot()), boardId, AddCard(listId, content)) == if ok then Some(Snapshot()) else None
    {
      var order := Count(cards, listId);
      cards := cards + [Row(GeneratedId(nextId), listId, content, order)];
      nextId := nextId + 1;
      ok := true;
    }

    /** UPDATE_CARD_CONTENT: update by id (throws when missing); the list id is not used. */
    method ApplyUpdateCardContent(boardId: Id, listId: Id, cardId: Id, newContent: string) returns (ok: bool)
      modifies this
      ensures Step(old(Snapshot()), boardId, UpdateCardContent(listId, cardId, newContent)) == if ok then Some(Snapshot()) else None
    {
      if !HasId(cards, cardId) {
        return false;
      }
      cards := SetText(cards, cardId, newContent);
      ok := true;
    }

    /** DELETE_CARD: delete the card (throws when missing), then renumber the named list. */
    method ApplyDeleteCard(boardId: Id, listId: Id, cardId: Id) returns (ok: bool)
      modifies this
      ensures Step(old(Snapshot()), boardId, DeleteCard(listId, cardId)) == if ok then Some(Snapshot()) else None
    {
      if !HasId(cards, cardId) {
        return false;
      }
      cards := WithoutId(cards, cardId);
      var remaining := SortByOrder(Siblings(cards, listId));
      cards := Renumber(cards, remaining);
      ok := true;
    }

    /** MOVE_CARD: find the card (throws when missing), close the gap in the source list,
        shift the destination (another list) or the window (the same list), place the card. */
    method ApplyMoveCard(boardId: Id, sourceListId: Id, destinationListId: Id, sourceIndex: int,
                         destinationIndex: int, cardId: Id) returns (ok: bool)
      modifies this
      ensures Step(old(Snapshot()), boardId, MoveCard(sourceListId, destinationListId, sourceIndex, destinationIndex, cardId))
           == if ok then Some(Snapshot()) else None
    {
      if !HasId(cards, cardId) {
        return false;
      }
      ghost var before := cards;
      cards := UpdateMany(cards, sourceListId, From(sourceIndex + 1), -1);
      if sourceListId != destinationListId {
        cards := UpdateMany(cards, destinationListId, From(destinationIndex), 1);
      } else if sourceIndex < destinationIndex {
        cards := UpdateMany(cards, sourceListId, Between(sourceIndex + 1, destinationIndex + 1), -1);
      } else if sourceIndex > destinationIndex {
        cards := UpdateMany(cards, sourceListId, Between(destinationIndex, sourceIndex), 1);
      }
      assert sourceListId != destinationListId ==>
               cards == CrossListShift(before, sourceListId, destinationListId, sourceIndex, destinationIndex);
      assert sourceListId == destinationListId ==>
               cards == WindowShift(CloseGap(before, sourceListId, sourceIndex), sourceListId, sourceIndex, destinationIndex);
      cards := SetPlace(cards, cardId, destinationListId, destinationIndex);
      ok := true;
    }

    /** `$transaction`: the changes in order; on the first throw every table is put back
        as it was before the transaction. */
    method RunTransaction(boardId: Id, changes: seq<Change>) returns (ok: bool)
      modifies this
      ensures ok == RunBatch(old(Snapshot()), boardId, changes).Some?
      ensures Snapshot() == if ok then RunBatch(old(Snapshot()), boardId, changes).value else old(Snapshot())
    {
      ghost var start := Snapshot();
      var savedBoards, savedLists, savedCards, savedNextId := boards, lists, cards, nextId;
      var i := 0;
      ok := true;
      while i < |changes| && ok
        invariant 0 <= i <= |changes|
        invariant ok ==> RunBatch(start, boardId, changes) == RunBatch(Snapshot(), boardId, changes[i..])
        invariant !ok ==> RunBatch(start, boardId, changes).None?
      {
        assert changes[i..][0] == changes[i] && changes[i..][1..] == changes[i + 1..];
        ok := ApplyChange(boardId, changes[i]);
        i := i + 1;
      }
      if ok {
        assert changes[i..] == [];
      } else {
        boards, lists, cards, nextId := savedBoards, savedLists, savedCards, savedNextId;
      }
    }

    /** `applyChanges` up to its reply, on the store: the guard, then the transaction, which
        either applies every change and bumps the counter or leaves the tables as they were. */
    method CommitChanges(userId: Id, boardId: Id, changes: seq<Change>, currentActionCounter: int)
      returns (res: Response)
      requires Valid()
      modifies this
      ensures Valid()
      ensures (res, Snapshot()) == Commit(old(Snapshot()), userId, boardId, changes, currentActionCounter)
    {
      if !AllRecognised(changes) {
        return BadRequest;
      }
      if !(boardId in boards && boards[boardId].userId == userId) {
        return Forbidden;
      }
      if boards[boardId].actionCounter != currentActionCounter {
        return Conflict;
      }
      ghost var start := Snapshot();
      var ok := RunTransaction(boardId, changes);
      if !ok {
        return InternalServerError;
      }
      RunBatchKeepsWellFormed(start, boardId, changes);
      var n := boards[boardId].actionCounter + 1;
      boards := boards[boardId := boards[boardId].(actionCounter := n)];
      res := Applied(n);
    }

    /** `applyChanges`: the commit, then, when a new counter came back, the fanout of
        BOARD_UPDATED to every other tab watching the board. */
    method ApplyChanges(userId: Id, boardId: Id, tabId: Id, changes: seq<Change>, currentActionCounter: int,
                        hub: Sse.Registry) returns (res: Response)
      requires Valid()
      modifies this, hub
      ensures Valid()
      ensures (res, Snapshot()) == Commit(old(Snapshot()), userId, boardId, changes, currentActionCounter)
      ensures hub.clients == old(hub.clients)
      ensures res.Applied? ==>
                Sse.DeliveredTo(old(hub.outbox), hub.outbox, boardId, Sse.Recipients(hub.clients, boardId, tabId),
                                BoardUpdated(res.newActionCounter))
      ensures !res.Applied? ==> hub.outbox == old(hub.outbox)
    {
      res := CommitChanges(userId, boardId, changes, currentActionCounter);
      if res.Applied? && res.newActionCounter != 0 {
        var _ := hub.SendUpdate(boardId, tabId, BoardUpdated(res.newActionCounter));
      }
    }
  }
}

=== FILE: board_state.dfy ===
/** The board client: the optimistic reducer that applies a change to the local board at
    once, and the session that queues changes, sends them in batches and rolls back. */
module BoardState {
  import opened Wire
  import opened JsArray
  import BoardRouter

  datatype Card = Card(id: Id, content: string, order: int)

  datatype List = List(id: Id, title: string, order: int, cards: seq<Card>)

  datatype Board = Board(id: Id, lists: seq<List>, actionCounter: int, tabId: Id)

  // ---------------------------------------------------------------------------------------
  // Array helpers: `filter` and `find`

  /** `s.filter(keep)`. */
  function Filter<T(!new)>(s: seq<T>, keep: T -> bool): (r: seq<T>)
    ensures |r| <= |s|
    ensures forall x :: x in r <==> x in s && keep(x)
  {
    if s == [] then []
    else
      var last := s[|s| - 1];
      assert s == s[..|s| - 1] + [last];
      Filter(s[..|s| - 1], keep) + (if keep(last) then [last] else [])
  }

  /** Filtering a concatenation filters each part: the survivors keep their relative order. */
  lemma {:induction false} FilterAppend<T(!new)>(s: seq<T>, t: seq<T>, keep: T -> bool)
    ensures Filter(s + t, keep) == Filter(s, keep) + Filter(t, keep)
    decreases |t|
  {
    if t != [] {
      var n := |t| - 1;
      assert (s + t)[..|s + t| - 1] == s + t[..n];
      FilterAppend(s, t[..n], keep);
    } else {
      assert s + t == s;
    }
  }

  /** `lists.find((l) => l.id === id)`: the first list with that id. */
  function FindList(lists: seq<List>, id: Id): (r: Option<List>)
    ensures r.Some? ==> r.value in lists && r.value.id == id
    ensures r.None? ==> forall i | 0 <= i < |lists| :: lists[i].id != id
    ensures r.Some? ==> exists k | 0 <= k < |lists| :: lists[k] == r.value && forall j | 0 <= j < k :: lists[j].id != id
  {
    if lists == [] then None
    else if lists[0].id == id then Some(lists[0])
    else
      var r := FindList(lists[1..], id);
      if r.Some? then
        var k :| 1 <= k < |lists| && lists[k] == r.value && forall j | 1 <= j < k :: lists[j].id != id;
        r
      else r
  }

  predicate UniqueListIds(lists: seq<List>)
  {
    forall i, j | 0 <= i < j < |lists| :: lists[i].id != lists[j].id
  }

  lemma {:induction false} FindUnique(lists: seq<List>, a: nat)
    requires UniqueListIds(lists) && a < |lists|
    ensures FindList(lists, lists[a].id) == Some(lists[a])
  {
    if a > 0 {
      FindUnique(lists[1..], a - 1);
    }
  }

  /** Total number of cards on the board. */
  function TotalCards(lists: seq<List>): nat
  {
    if lists == [] then 0 else TotalCards(lists[..|lists| - 1]) + |lists[|lists| - 1].cards|
  }

  lemma {:induction false} TotalCardsUpdate(lists: seq<List>, i: nat, l: List)
    requires i < |lists|
    ensures TotalCards(lists[i := l]) == TotalCards(lists) - |lists[i].cards| + |l.cards|
  {
    var n := |lists|;
    if i < n - 1 {
      assert lists[i := l][..n - 1] == lists[..n - 1][i := l];
      TotalCardsUpdate(lists[..n - 1], i, l);
    } else {
      assert lists[i := l][..n - 1] == lists[..n - 1];
    }
  }

  // ---------------------------------------------------------------------------------------
  // The reducer

  /** REORDER_LIST: the two splices, then every list's order set to its index. */
  function Reordered(lists: seq<List>, sourceIndex: int, destinationIndex: int): (r: seq<List>)
    ensures |r| == |lists|
  {
    var moved := Move(lists, sourceIndex, destinationIndex);
    seq(|moved|, i requires 0 <= i < |moved| => moved[i].(order := i))
  }

  /** MOVE_CARD on one list: the source loses the card at `sourceIndex` (and, within one list,
      takes it back at `destinationIndex`); another destination list gains `moved`. */
  function MoveInList(l: List, sourceListId: Id, destinationListId: Id, sourceIndex: int,
                      destinationIndex: int, moved: Option<Card>): (r: List)
    ensures r.(cards := l.cards) == l
    ensures l.id != sourceListId && (l.id != destinationListId || sourceListId == destinationListId) ==> r == l
    ensures l.id == sourceListId && sourceListId == destinationListId ==> multiset(r.cards) == multiset(l.cards)
    ensures l.id == sourceListId && sourceListId != destinationListId && 0 <= sourceIndex < |l.cards| ==>
              multiset(r.cards) + multiset{l.cards[sourceIndex]} == multiset(l.cards)
    ensures l.id == sourceListId && sourceListId != destinationListId && sourceIndex >= |l.cards| ==> r == l
    ensures l.id == destinationListId && sourceListId != destinationListId ==>
              multiset(r.cards) == multiset(l.cards) + (if moved.Some? then multiset{moved.value} else multiset{})
  {
    if l.id == sourceListId then
      if sourceListId == destinationListId then l.(cards := Move(l.cards, sourceIndex, destinationIndex))
      else l.(cards := RemoveAt(l.cards, sourceIndex).1)
    else if l.id == destinationListId && sourceListId != destinationListId then
      if moved.Some? then l.(cards := InsertAt(l.cards, destinationIndex, moved.value)) else l
    else l
  }

  /** The card a cross-list move inserts: `find(source list)?.cards[sourceIndex]`. */
  function MovedCard(lists: seq<List>, sourceListId: Id, sourceIndex: int): (r: Option<Card>)
    ensures r.Some? ==> exists i | 0 <= i < |lists| ::
              lists[i].id == sourceListId && 0 <= sourceIndex < |lists[i].cards| && lists[i].cards[sourceIndex] == r.value
    ensures (forall i | 0 <= i < |lists| :: lists[i].id != sourceListId) ==> r.None?
    ensures sourceIndex < 0 ==> r.None?
    ensures UniqueListIds(lists) ==> forall i | 0 <= i < |lists| && lists[i].id == sourceListId ::
              r == At(lists[i].cards, sourceIndex)
    ensures forall k | 0 <= k < |lists| && lists[k].id == sourceListId
                       && (forall j | 0 <= j < k :: lists[j].id != sourceListId) ::
              r == At(lists[k].cards, sourceIndex)
  {
    var source := FindList(lists, sourceListId);
    if source.Some? then At(source.value.cards, sourceIndex) else None
  }

  /** `applyChangeLocally`: a missing board stays missing; an unknown change leaves the
      board as it is; every other change edits the lists and bumps the local counter.
      `freshId` stands for the temporary id an added list or card receives. */
  function ApplyLocally(board: Option<Board>, change: Change, freshId: Id): (r: Option<Board>)
    ensures board.None? ==> r.None?
    ensures board.Some? ==> r.Some? && r.value.id == board.value.id && r.value.tabId == board.value.tabId
    ensures board.Some? && !change.Unrecognised? ==> r.value.actionCounter == board.value.actionCounter + 1
    ensures change.Unrecognised? ==> r == board
  {
    if board.None? then None
    else
      var b := board.value;
      var bumped := b.(actionCounter := b.actionCounter + 1);
      match change
      case AddList(title) =>
        Some(bumped.(lists := b.lists + [List(freshId, title, |b.lists|, [])]))
      case ReorderList(sourceIndex, destinationIndex) =>
        Some(bumped.(lists := Reordered(b.lists, sourceIndex, destinationIndex)))
      case AddCard(listId, content) =>
        Some(bumped.(lists := seq(|b.lists|, i requires 0 <= i < |b.lists| =>
          var l := b.lists[i];
          if l.id == listId then l.(cards := l.cards + [Card(freshId, content, |l.cards|)]) else l)))
      case MoveCard(sourceListId, destinationListId, sourceIndex, destinationIndex, _) =>
        var moved := MovedCard(b.lists, sourceListId, sourceIndex);
        Some(bumped.(lists := seq(|b.lists|, i requires 0 <= i < |b.lists| =>
          MoveInList(b.lists[i], sourceListId, destinationListId, sourceIndex, destinationIndex, moved))))
      case DeleteList(listId) =>
        Some(bumped.(lists := Filter(b.lists, (l: List) => l.id != listId)))
      case UpdateListTitle(listId, newTitle) =>
        Some(bumped.(lists := seq(|b.lists|, i requires 0 <= i < |b.lists| =>
          var l := b.lists[i];
          if l.id == listId then l.(title := newTitle) else l)))
      case UpdateCardContent(listId, cardId, newContent) =>
        Some(bumped.(lists := seq(|b.lists|, i requires 0 <= i < |b.lists| =>
          var l := b.lists[i];
          if l.id == listId
          then l.(cards := seq(|l.cards|, j requires 0 <= j < |l.cards| =>
                  if l.cards[j].id == cardId then l.cards[j].(content := newContent) else l.cards[j]))
          else l)))
      case DeleteCard(listId, cardId) =>
        Some(bumped.(lists := seq(|b.lists|, i requires 0 <= i < |b.lists| =>
          var l := b.lists[i];
          if l.id == listId then l.(cards := Filter(l.cards, (c: Card) => c.id != cardId)) else l)))
      case Unrecognised(_) =>
        board
  }

  // ---------------------------------------------------------------------------------------
  // What each change kind does to the local board

  /** ADD_LIST appends one empty list whose order is the previous list count; the existing
      lists are unchanged. */
  lemma AddListAppends(b: Board, title: string, freshId: Id)
    ensures var r := ApplyLocally(Some(b), AddList(title), freshId).value;
            && |r.lists| == |b.lists| + 1
            && r.lists[..|b.lists|] == b.lists
            && r.lists[|b.lists|] == List(freshId, title, |b.lists|, [])
  {
    var r := ApplyLocally(Some(b), AddList(title), freshId).value;
    assert r.lists == b.lists + [List(freshId, title, |b.lists|, [])];
  }

  /** REORDER_LIST yields the remove-at-source, insert-at-destination arrangement of the
      lists, each carrying its new index as its order; in range, the moved list lands at
      `destinationIndex`. */
  lemma ReorderIsMove(b: Board, s: int, d: int)
    ensures var r := ApplyLocally(Some(b), ReorderList(s, d), "").value;
            && |r.lists| == |b.lists|
            && forall i | 0 <= i < |r.lists| :: r.lists[i] == Move(b.lists, s, d)[i].(order := i)
    ensures 0 <= s < |b.lists| && 0 <= d < |b.lists| ==>
              ApplyLocally(Some(b), ReorderList(s, d), "").value.lists[d] == b.lists[s].(order := d)
  {
    if 0 <= s < |b.lists| && 0 <= d < |b.lists| {
      MoveInRange(b.lists, s, d);
    }
  }

  /** ADD_CARD appends a card whose order is the list's previous card count to every list
      with that id and to no other list. */
  lemma AddCardTouchesOnlyItsList(b: Board, listId: Id, content: string, freshId: Id)
    ensures var r := ApplyLocally(Some(b), AddCard(listId, content), freshId).value;
            && |r.lists| == |b.lists|
            && forall i | 0 <= i < |b.lists| ::
                 if b.lists[i].id == listId
                 then r.lists[i].cards == b.lists[i].cards + [Card(freshId, content, |b.lists[i].cards|)]
                      && r.lists[i].(cards := b.lists[i].cards) == b.lists[i]
                 else r.lists[i] == b.lists[i]
  {
  }

  /** Within one list, MOVE_CARD permutes that list's cards (the orders are not renumbered);
      in range the card lands at `destinationIndex`. Other lists are unchanged. */
  lemma SameListMovePermutes(b: Board, l: Id, s: int, d: int, cardId: Id)
    ensures var r := ApplyLocally(Some(b), MoveCard(l, l, s, d, cardId), "").value;
            && |r.lists| == |b.lists|
            && forall i | 0 <= i < |b.lists| ::
                 if b.lists[i].id == l
                 then multiset(r.lists[i].cards) == multiset(b.lists[i].cards)
                      && r.lists[i].(cards := b.lists[i].cards) == b.lists[i]
                      && (0 <= s < |b.lists[i].cards| && 0 <= d < |b.lists[i].cards| ==>
                            r.lists[i].cards[d] == b.lists[i].cards[s])
                 else r.lists[i] == b.lists[i]
  {
    forall i | 0 <= i < |b.lists| && b.lists[i].id == l && 0 <= s < |b.lists[i].cards| && 0 <= d < |b.lists[i].cards|
      ensures Move(b.lists[i].cards, s, d)[d] == b.lists[i].cards[s]
    {
      MoveInRange(b.lists[i].cards, s, d);
    }
  }

  /** Across lists with distinct ids: the source loses the card at `s`, the destination gains
      that same card (at `d` when `d` is in range), no other list changes, and the board
      holds as many cards as before. */
  lemma CrossListMoveKeepsCards(b: Board, src: nat, dst: nat, s: int, d: int, cardId: Id)
    requires UniqueListIds(b.lists) && src < |b.lists| && dst < |b.lists| && src != dst
    requires 0 <= s < |b.lists[src].cards|
    ensures var r := ApplyLocally(Some(b), MoveCard(b.lists[src].id, b.lists[dst].id, s, d, cardId), "").value;
            var card := b.lists[src].cards[s];
            && |r.lists| == |b.lists|
            && multiset(r.lists[src].cards) + multiset{card} == multiset(b.lists[src].cards)
            && multiset(r.lists[dst].cards) == multiset(b.lists[dst].cards) + multiset{card}
            && (0 <= d <= |b.lists[dst].cards| ==> r.lists[dst].cards[d] == card)
            && (forall i | 0 <= i < |b.lists| && i != src && i != dst :: r.lists[i] == b.lists[i])
            && TotalCards(r.lists) == TotalCards(b.lists)
  {
    var srcId, dstId := b.lists[src].id, b.lists[dst].id;
    var card := b.lists[src].cards[s];
    FindUnique(b.lists, src);
    assert MovedCard(b.lists, srcId, s) == Some(card);
    var r := ApplyLocally(Some(b), MoveCard(srcId, dstId, s, d, cardId), "").value;
    var newSrc := b.lists[src].(cards := RemoveAt(b.lists[src].cards, s).1);
    var newDst := b.lists[dst].(cards := InsertAt(b.lists[dst].cards, d, card));
    assert r.lists == b.lists[src := newSrc][dst := newDst];
    TotalCardsUpdate(b.lists, src, newSrc);
    TotalCardsUpdate(b.lists[src := newSrc], dst, newDst);
  }

  /** DELETE_LIST drops exactly the lists with that id; the survivors are unchanged and keep
      their relative order (see FilterAppend); nothing is renumbered. */
  lemma DeleteListFilters(b: Board, listId: Id)
    ensures var r := ApplyLocally(Some(b), DeleteList(listId), "").value;
            && r.lists == Filter(b.lists, (l: List) => l.id != listId)
            && forall l :: l in r.lists <==> l in b.lists && l.id != listId
  {
  }

  /** UPDATE_LIST_TITLE changes only the title of the lists with that id. */
  lemma UpdateListTitleOnlyTitle(b: Board, listId: Id, newTitle: string)
    ensures var r := ApplyLocally(Some(b), UpdateListTitle(listId, newTitle), "").value;
            && |r.lists| == |b.lists|
            && forall i | 0 <= i < |b.lists| ::
                 r.lists[i].(title := b.lists[i].title) == b.lists[i]
                 && r.lists[i].title == if b.lists[i].id == listId then newTitle else b.lists[i].title
  {
  }

  /** UPDATE_CARD_CONTENT changes only the content of the matching cards of the named list;
      ids and orders are untouched. */
  lemma UpdateCardContentOnlyContent(b: Board, listId: Id, cardId: Id, newContent: string)
    ensures var r := ApplyLocally(Some(b), UpdateCardContent(listId, cardId, newContent), "").value;
            && |r.lists| == |b.lists|
            && forall i | 0 <= i < |b.lists| ::
                 && r.lists[i].(cards := b.lists[i].cards) == b.lists[i]
                 && |r.lists[i].cards| == |b.lists[i].cards|
                 && forall j | 0 <= j < |b.lists[i].cards| ::
                      var c := b.lists[i].cards[j];
                      r.lists[i].cards[j].(content := c.content) == c
                      && r.lists[i].cards[j].content == if b.lists[i].id == listId && c.id == cardId then newContent else c.content
  {
  }

  /** DELETE_CARD drops the cards with that id from the named list only, without renumbering;
      the surviving cards keep their relative order (see FilterAppend). */
  lemma DeleteCardFilters(b: Board, listId: Id, cardId: Id)
    ensures var r := ApplyLocally(Some(b), DeleteCard(listId, cardId), "").value;
            && |r.lists| == |b.lists|
            && forall i | 0 <= i < |b.lists| ::
                 if b.lists[i].id == listId
                 then r.lists[i].(cards := b.lists[i].cards) == b.lists[i]
                      && r.lists[i].cards == Filter(b.lists[i].cards, (c: Card) => c.id != cardId)
                      && forall c :: c in r.lists[i].cards <==> c in b.lists[i].cards && c.id != cardId
                 else r.lists[i] == b.lists[i]
  {
  }

  // ---------------------------------------------------------------------------------------
  // Queues of changes

  /** The board after a queue of changes, each with the fresh id it was given. */
  function ApplyAll(board: Option<Board>, changes: seq<Change>, freshIds: seq<Id>): (r: Option<Board>)
    requires |freshIds| == |changes|
    ensures board.None? ==> r.None?
    decreases |changes|
  {
    if changes == [] then board
    else
      var n := |changes| - 1;
      ApplyLocally(ApplyAll(board, changes[..n], freshIds[..n]), changes[n], freshIds[n])
  }

  /** The local counter advances once per change. */
  lemma {:induction false} ApplyAllCounter(b: Board, changes: seq<Change>, freshIds: seq<Id>)
    requires |freshIds| == |changes| && BoardRouter.AllRecognised(changes)
    ensures ApplyAll(Some(b), changes, freshIds).Some?
    ensures ApplyAll(Some(b), changes, freshIds).value.actionCounter == b.actionCounter + |changes|
    decreases |changes|
  {
    if changes != [] {
      var n := |changes| - 1;
      assert BoardRouter.AllRecognised(changes[..n]) && !changes[n].Unrecognised?;
      ApplyAllCounter(b, changes[..n], freshIds[..n]);
    }
  }

  /** The client counts changes while the server counts batches: after a batch of `k`
      changes that the server applies, the local counter is `k` ahead of where it started and
      the stored one only 1, so they agree again only for single-change batches. */
  lemma {:induction false} CounterDrift(db: BoardRouter.Db, userId: Id, b: Board, changes: seq<Change>, freshIds: seq<Id>)
    requires |freshIds| == |changes|
    requires BoardRouter.Commit(db, userId, b.id, changes, b.actionCounter).0.Applied?
    ensures ApplyAll(Some(b), changes, freshIds).Some?
    ensures ApplyAll(Some(b), changes, freshIds).value.actionCounter == b.actionCounter + |changes|
    ensures BoardRouter.Commit(db, userId, b.id, changes, b.actionCounter).1.boards[b.id].actionCounter
         == b.actionCounter + 1
  {
    assert BoardRouter.AllRecognised(changes);
    ApplyAllCounter(b, changes, freshIds);
  }

  /** Without a refetch in between, the batch that follows a successful batch of two or
      more changes carries the client's counter, which the server no longer holds: it is
      refused with CONFLICT and the store is left as it is. */
  lemma NextBatchConflicts(db: BoardRouter.Db, userId: Id, b: Board, changes: seq<Change>, freshIds: seq<Id>,
                           next: seq<Change>)
    requires |freshIds| == |changes| && |changes| >= 2
    requires BoardRouter.Commit(db, userId, b.id, changes, b.actionCounter).0.Applied?
    requires BoardRouter.AllRecognised(next)
    ensures ApplyAll(Some(b), changes, freshIds).Some?
    ensures var after := BoardRouter.Commit(db, userId, b.id, changes, b.actionCounter).1;
            BoardRouter.Commit(after, userId, b.id, next, ApplyAll(Some(b), changes, freshIds).value.actionCounter)
              == (BoardRouter.Conflict, after)
  {
    CounterDrift(db, userId, b, changes, freshIds);
  }

  // ---------------------------------------------------------------------------------------
  // The session

  /** What the server call reports: `success` set, a reply without it, or a thrown error. */
  datatype Outcome = Succeeded | NotSucceeded | Threw

  /** The `applyChanges` request a batch sends. */
  datatype Request = Request(boardId: Id, tabId: Id, changes: seq<Change>, currentActionCounter: int)

  function BoardIdOf(board: Option<Board>): Id
  {
    if board.Some? then board.value.id else ""
  }

  function TabIdOf(board: Option<Board>): Id
  {
    if board.Some? then board.value.tabId else ""
  }

  /** `board?.actionCounter ?? 0`. */
  function CounterOf(board: Option<Board>): int
  {
    if board.Some? then board.value.actionCounter else 0
  }

  /** One tab's board state: the board shown, the changes not yet sent, the board as it was
      before the first of them, and whether a batch timer is running. */
  class Session {
    var board: Option<Board>
    var queue: seq<Change>
    var savedState: Option<Board>
    var timerPending: bool
    ghost var freshIds: seq<Id>

    /** Every queued change has its fresh id, and a non-empty queue always has a timer coming. */
    ghost predicate Valid()
      reads this
    {
      && |freshIds| == |queue|
      && (queue != [] ==> timerPending)
    }

    /** The board shown is the saved board with the queued changes applied. A refetch of the
        board while changes are queued breaks this. */
    ghost predicate Replayed()
      reads this
      requires Valid()
    {
      queue != [] ==> board == ApplyAll(savedState, queue, freshIds)
    }

    constructor ()
      ensures Valid() && Replayed()
      ensures board.None? && queue == [] && savedState.None? && !timerPending
    {
      board, queue, savedState, timerPending := None, [], None, false;
      freshIds := [];
    }

    /** `initializeBoard`: show the board fetched from the server, whatever is queued. */
    method InitializeBoard(boardId: Id, tabId: Id, lists: seq<List>, actionCounter: int)
      requires Valid()
      modifies this
      ensures Valid()
      ensures board == Some(Board(boardId, lists, actionCounter, tabId))
      ensures queue == old(queue) && savedState == old(savedState) && timerPending == old(timerPending)
      ensures freshIds == old(freshIds)
    {
      board := Some(Board(boardId, lists, actionCounter, tabId));
    }

    /** `scheduleBatch`: start the timer unless one is already running. */
    method ScheduleBatch()
      modifies this
      ensures timerPending
      ensures board == old(board) && queue == old(queue) && savedState == old(savedState)
      ensures freshIds == old(freshIds)
    {
      if !timerPending {
        timerPending := true;
      }
    }

    /** `applyChange`: queue the change; the first change of a batch saves the board and
        schedules the batch; then apply the change to the board shown. */
    method ApplyChange(change: Change, freshId: Id)
      requires Valid()
      modifies this
      ensures Valid()
      ensures queue == old(queue) + [change]
      ensures board == ApplyLocally(old(board), change, freshId)
      ensures old(queue) == [] ==> savedState == old(board) && timerPending && Replayed()
      ensures old(queue) != [] ==> savedState == old(savedState) && timerPending == old(timerPending)
      ensures old(Replayed()) ==> Replayed()
    {
      ghost var ids := freshIds + [freshId];
      var newQueue := queue + [change];
      if |newQueue| == 1 {
        savedState := board;
        ScheduleBatch();
      }
      queue := newQueue;
      freshIds := ids;
      board := ApplyLocally(board, change, freshId);
      assert queue[..|queue| - 1] == old(queue) && freshIds[..|freshIds| - 1] == old(freshIds);
    }

    /** `processBatch`, run when the timer fires: nothing to send leaves everything but the
        timer as it was; otherwise the whole queue goes out and the queue empties. The board
        id, tab id and counter sent are those of the board the batch's first change saw,
        which is the saved board. A success forgets the saved board, a reply without
        success restores it when there is one, a thrown error keeps both. */
    method ProcessBatch(outcome: Outcome) returns (sent: Option<Request>)
      requires Valid()
      modifies this
      ensures Valid() && Replayed()
      ensures !timerPending && queue == []
      ensures old(queue) == [] ==> sent.None? && board == old(board) && savedState == old(savedState)
      ensures old(queue) != [] ==>
                sent == Some(Request(BoardIdOf(old(savedState)), TabIdOf(old(savedState)), old(queue),
                                     CounterOf(old(savedState))))
      ensures old(queue) != [] && outcome == Succeeded ==> savedState.None? && board == old(board)
      ensures old(queue) != [] && outcome == NotSucceeded ==>
                board == (if old(savedState).Some? then old(savedState) else old(board))
                && savedState == old(savedState)
      ensures outcome == Threw ==> board == old(board) && savedState == old(savedState)
    {
      timerPending := false;
      if |queue| == 0 {
        freshIds := [];
        return None;
      }
      var batch := queue;
      queue := [];
      freshIds := [];
      sent := Some(Request(BoardIdOf(savedState), TabIdOf(savedState), batch, CounterOf(savedState)));
      match outcome
      case Succeeded =>
        savedState := None;
      case NotSucceeded =>
        if savedState.Some? {
          board := savedState;
        }
      case Threw =>
    }
  }

  /** A refetch while changes are queued: the session still takes further changes and still
      flushes, sending the batch with the board the batch's first change saw. */
  method RefetchDuringBatch() returns (sent: Option<Request>)
    ensures sent == Some(Request("b", "t", [AddList("x"), AddList("y")], 0))
  {
    var session := new Session();
    session.InitializeBoard("b", "t", [], 0);
    session.ApplyChange(AddList("x"), "l1");
    session.InitializeBoard("b", "t", [], 5);
    assert session.queue == [AddList("x")];
    assert session.savedState == Some(Board("b", [], 0, "t"));
    session.ApplyChange(AddList("y"), "l2");
    assert session.queue == [AddList("x"), AddList("y")];
    sent := session.ProcessBatch(Threw);
  }
}

=== FILE: js_array.dfy ===
/** The parts of JavaScript's `Array.prototype.splice` that the board code relies on. */
module JsArray {
  import opened Wire

  /** Where `splice(start, …)` begins on an array of length `len`: a negative start counts
      back from the end, and the result is clamped to `0..len`. */
  function SpliceStart(len: nat, start: int): (k: nat)
    ensures k <= len
    ensures 0 <= start <= len ==> k == start
    ensures start < 0 ==> k == if len + start < 0 then 0 else len + start
    ensures start > len ==> k == len
  {
    if start < 0 then (if len + start < 0 then 0 else len + start)
    else if start > len then len
    else start
  }

  /** `a.splice(start, 1)`: the element removed (`None` for JavaScript's `undefined`)
      and the array that is left. */
  function RemoveAt<T>(a: seq<T>, start: int): (r: (Option<T>, seq<T>))
    ensures r.0.Some? <==> 0 < |a| && start < |a|
    ensures r.0.Some? ==> |r.1| + 1 == |a| && multiset(r.1) + multiset{r.0.value} == multiset(a)
    ensures 0 <= start < |a| ==> r.0 == Some(a[start])
    ensures r.0.None? ==> r.1 == a
  {
    var k := SpliceStart(|a|, start);
    if k < |a| then
      assert a == a[..k] + [a[k]] + a[k + 1..];
      (Some(a[k]), a[..k] + a[k + 1..])
    else (None, a)
  }

  /** `a.splice(start, 0, x)`. */
  function InsertAt<T>(a: seq<T>, start: int, x: T): (r: seq<T>)
    ensures |r| == |a| + 1
    ensures multiset(r) == multiset(a) + multiset{x}
    ensures r[SpliceStart(|a|, start)] == x
  {
    var k := SpliceStart(|a|, start);
    assert a == a[..k] + a[k..];
    a[..k] + [x] + a[k..]
  }

  /** `a[i]`: plain indexing, `undefined` outside `0..|a|-1` (no counting from the end). */
  function At<T>(a: seq<T>, i: int): (r: Option<T>)
    ensures r.Some? <==> 0 <= i < |a|
    ensures r.Some? ==> r.value == a[i]
  {
    if 0 <= i < |a| then Some(a[i]) else None
  }

  /** Take the element at `from` out and put it back at `to` (the two-splice idiom);
      nothing is inserted when nothing was removed. */
  function Move<T>(a: seq<T>, from: int, to: int): (r: seq<T>)
    ensures multiset(r) == multiset(a)
    ensures |r| == |a|
  {
    var (x, rest) := RemoveAt(a, from);
    if x.Some? then InsertAt(rest, to, x.value) else a
  }

  /** Within range the moved element lands exactly at `to`, and the others keep their
      relative order: those before `min(from, to)` and after `max(from, to)` stay put. */
  lemma MoveInRange<T>(a: seq<T>, from: int, to: int)
    requires 0 <= from < |a| && 0 <= to < |a|
    ensures Move(a, from, to)[to] == a[from]
    ensures forall i | 0 <= i < |a| && i < from && i < to :: Move(a, from, to)[i] == a[i]
    ensures forall i | 0 <= i < |a| && i > from && i > to :: Move(a, from, to)[i] == a[i]
    ensures from < to ==> forall i | from <= i < to :: Move(a, from, to)[i] == a[i + 1]
    ensures to < from ==> forall i | to < i <= from :: Move(a, from, to)[i] == a[i - 1]
  {
    var rest := a[..from] + a[from + 1..];
    assert RemoveAt(a, from) == (Some(a[from]), rest);
    assert Move(a, from, to) == rest[..to] + [a[from]] + rest[to..];
  }

  /** `[A, B, C]` with source 0 and destination 2 becomes `[B, C, A]`. */
  lemma MoveExample()
    ensures Move(['A', 'B', 'C'], 0, 2) == ['B', 'C', 'A']
  {
    MoveInRange(['A', 'B', 'C'], 0, 2);
  }
}

=== FILE: ordering.dfy ===
/** Sibling ordering as the server's tables keep it: every row carries an integer `order`
    among the rows that share its parent. */
module Ordering {
  import opened Wire

  /** A row of an ordered table. In the list table `parent` is the board id and `text` the
      title; in the card table `parent` is the list id and `text` the content. */
  datatype Row = Row(id: Id, parent: Id, text: string, order: int)

  /** The rows of parent `p`, in table order: `findMany({ where: { <parent>: p } })`. */
  function Siblings(rows: seq<Row>, p: Id): (r: seq<Row>)
    ensures |r| <= |rows|
  {
    if rows == [] then []
    else
      var last := rows[|rows| - 1];
      assert rows == rows[..|rows| - 1] + [last];
      Siblings(rows[..|rows| - 1], p) + (if last.parent == p then [last] else [])
  }

  /** `count({ where: { <parent>: p } })`. */
  function Count(rows: seq<Row>, p: Id): nat
  {
    |Siblings(rows, p)|
  }

  /** Primary keys are unique. */
  predicate DistinctIds(rows: seq<Row>)
  {
    forall i, j | 0 <= i < j < |rows| :: rows[i].id != rows[j].id
  }

  /** The density invariant: the orders of `p`'s rows lie in `0..Count-1` and are pairwise
      distinct, so they are exactly `0..Count-1` (see DenseCovers). */
  predicate Dense(rows: seq<Row>, p: Id)
  {
    && (forall i | 0 <= i < |rows| && rows[i].parent == p :: 0 <= rows[i].order < Count(rows, p))
    && DistinctOrders(rows, p)
  }

  /** No two of `p`'s rows share an order. */
  predicate DistinctOrders(rows: seq<Row>, p: Id)
  {
    forall i, j | 0 <= i < j < |rows| && rows[i].parent == p && rows[j].parent == p ::
      rows[i].order != rows[j].order
  }

  // ---------------------------------------------------------------------------------------
  // Counting siblings

  /** One unfolding of `Siblings`. */
  lemma SiblingsDropLast(rows: seq<Row>, p: Id)
    requires rows != []
    ensures Siblings(rows, p)
         == Siblings(rows[..|rows| - 1], p) + (if rows[|rows| - 1].parent == p then [rows[|rows| - 1]] else [])
  {
  }

  /** `p`'s rows are exactly the rows whose parent is `p`. */
  lemma {:induction false} SiblingsMembers(rows: seq<Row>, p: Id)
    ensures forall x :: x in Siblings(rows, p) <==> x in rows && x.parent == p
  {
    if rows != [] {
      var n := |rows|;
      SiblingsMembers(rows[..n - 1], p);
      SiblingsDropLast(rows, p);
      assert rows == rows[..n - 1] + [rows[n - 1]];
    }
  }

  lemma {:induction false} SiblingsAppend(rows: seq<Row>, r: Row, p: Id)
    ensures Siblings(rows + [r], p) == Siblings(rows, p) + (if r.parent == p then [r] else [])
  {
    assert (rows + [r])[..|rows|] == rows;
  }

  lemma CountAppend(rows: seq<Row>, r: Row, p: Id)
    ensures Count(rows + [r], p) == Count(rows, p) + (if r.parent == p then 1 else 0)
  {
    SiblingsAppend(rows, r, p);
  }

  /** Two tables with the same parent column have the same sibling counts. */
  lemma {:induction false} CountSameParents(a: seq<Row>, b: seq<Row>, p: Id)
    requires |a| == |b|
    requires forall i | 0 <= i < |a| :: a[i].parent == b[i].parent
    ensures Count(a, p) == Count(b, p)
  {
    if a != [] {
      CountSameParents(a[..|a| - 1], b[..|b| - 1], p);
    }
  }

  /** Replacing one row moves it from its old parent's count to its new parent's. */
  lemma {:induction false} CountUpdate(rows: seq<Row>, k: nat, r: Row, p: Id)
    requires k < |rows|
    ensures Count(rows[k := r], p)
         == Count(rows, p) - (if rows[k].parent == p then 1 else 0) + (if r.parent == p then 1 else 0)
  {
    var n := |rows|;
    if k < n - 1 {
      assert rows[k := r][..n - 1] == rows[..n - 1][k := r];
      CountUpdate(rows[..n - 1], k, r, p);
    } else {
      assert rows[k := r][..n - 1] == rows[..n - 1];
    }
  }

  /** Density of a parent depends only on that parent's rows and the count. */
  lemma DenseElsewhere(a: seq<Row>, b: seq<Row>, p: Id, q: Id)
    requires |a| == |b| && q != p
    requires forall i | 0 <= i < |a| :: a[i].parent == b[i].parent
    requires forall i | 0 <= i < |a| && a[i].parent != p :: a[i] == b[i]
    ensures Dense(a, q) <==> Dense(b, q)
  {
    CountSameParents(a, b, q);
  }

  /** Two tables that agree on every row's parent and order are dense for the same parents. */
  lemma DenseSameShape(a: seq<Row>, b: seq<Row>, q: Id)
    requires |a| == |b|
    requires forall i | 0 <= i < |a| :: a[i].parent == b[i].parent && a[i].order == b[i].order
    ensures Dense(a, q) <==> Dense(b, q)
  {
    CountSameParents(a, b, q);
  }

  /** A parent whose rows and count are untouched stays dense. */
  lemma DenseUntouched(a: seq<Row>, b: seq<Row>, q: Id)
    requires Dense(a, q) && |a| == |b| && Count(b, q) == Count(a, q)
    requires forall i | 0 <= i < |b| && b[i].parent == q :: b[i] == a[i]
    ensures Dense(b, q)
  {
    forall i, j | 0 <= i < j < |b| && b[i].parent == q && b[j].parent == q
      ensures b[i].order != b[j].order
    {
      assert b[i] == a[i] && b[j] == a[j];
    }
  }

  /** A table all of whose rows belong to `p` is its own sibling list. */
  lemma {:induction false} SiblingsAll(rows: seq<Row>, p: Id)
    requires forall i | 0 <= i < |rows| :: rows[i].parent == p
    ensures Siblings(rows, p) == rows
  {
    if rows != [] {
      SiblingsAll(rows[..|rows| - 1], p);
      assert rows[..|rows| - 1] + [rows[|rows| - 1]] == rows;
    }
  }

  /** A table of `p`'s rows numbered by position is dense. */
  lemma DenseByPosition(rows: seq<Row>, p: Id)
    requires forall i | 0 <= i < |rows| :: rows[i].parent == p && rows[i].order == i
    ensures Dense(rows, p)
  {
    SiblingsAll(rows, p);
  }

  /** A table with unique ids, as many `q` rows as a dense table and only rows drawn from
      it, is dense for `q` too. */
  lemma DenseTransfer(a: seq<Row>, b: seq<Row>, q: Id)
    requires Dense(a, q) && DistinctIds(b)
    requires Count(b, q) == Count(a, q)
    requires forall x | x in b && x.parent == q :: x in a
    ensures Dense(b, q)
  {
    forall i | 0 <= i < |b| && b[i].parent == q
      ensures 0 <= b[i].order < Count(b, q)
    {
      assert b[i] in b;
      var k :| 0 <= k < |a| && a[k] == b[i];
    }
    forall i, j | 0 <= i < j < |b| && b[i].parent == q && b[j].parent == q
      ensures b[i].order != b[j].order
    {
      assert b[i] in b && b[j] in b;
      var k :| 0 <= k < |a| && a[k] == b[i];
      var m :| 0 <= m < |a| && a[m] == b[j];
      assert b[i].id != b[j].id;
      assert k != m;
    }
  }

  /** The set `{0, …, n-1}`. */
  function Range(n: nat): (r: set<int>)
    ensures |r| == n
    ensures forall o :: o in r <==> 0 <= o < n
  {
    if n == 0 then {} else Range(n - 1) + {n - 1}
  }

  /** The orders that `p`'s rows carry. */
  function OrdersOf(rows: seq<Row>, p: Id): (r: set<int>)
    ensures forall o :: o in r <==> exists i :: 0 <= i < |rows| && rows[i].parent == p && rows[i].order == o
  {
    if rows == [] then {}
    else
      var n := |rows|;
      assert forall i | 0 <= i < n - 1 :: rows[..n - 1][i] == rows[i];
      OrdersOf(rows[..n - 1], p) + (if rows[n - 1].parent == p then {rows[n - 1].order} else {})
  }

  /** Pairwise distinct orders: as many different orders as rows. */
  lemma {:induction false} OrdersOfSize(rows: seq<Row>, p: Id)
    requires DistinctOrders(rows, p)
    ensures |OrdersOf(rows, p)| == Count(rows, p)
  {
    var n := |rows|;
    if n > 0 {
      var prefix := rows[..n - 1];
      var last := rows[n - 1];
      assert DistinctOrders(prefix, p) by {
        assert forall i | 0 <= i < n - 1 :: prefix[i] == rows[i];
      }
      OrdersOfSize(prefix, p);
      assert Siblings(rows, p) == Siblings(prefix, p) + (if last.parent == p then [last] else []);
      if last.parent == p {
        LastOrderIsNew(rows, p);
      }
      assert OrdersOf(rows, p) == OrdersOf(prefix, p) + (if last.parent == p then {last.order} else {});
    }
  }

  lemma LastOrderIsNew(rows: seq<Row>, p: Id)
    requires DistinctOrders(rows, p) && rows != [] && rows[|rows| - 1].parent == p
    ensures rows[|rows| - 1].order !in OrdersOf(rows[..|rows| - 1], p)
  {
  }

  /** Dense siblings take every order in `0..Count-1`: the orders are exactly that range. */
  lemma DenseCovers(rows: seq<Row>, p: Id, k: int)
    requires Dense(rows, p) && 0 <= k < Count(rows, p)
    ensures exists i :: 0 <= i < |rows| && rows[i].parent == p && rows[i].order == k
  {
    var n := Count(rows, p);
    OrdersOfSize(rows, p);
    var ords := OrdersOf(rows, p);
    assert ords <= Range(n);
    assert Range(n) == ords + (Range(n) - ords);
    assert k in ords;
  }

  // ---------------------------------------------------------------------------------------
  // `findMany({ orderBy: { order: "asc" } })`: a stable sort on the order column

  predicate SortedByOrder(s: seq<Row>)
  {
    forall i, j | 0 <= i < j < |s| :: s[i].order <= s[j].order
  }

  /** Inserts `x` before the first row whose order is not smaller. */
  function InsertByOrder(x: Row, s: seq<Row>): (r: seq<Row>)
    requires SortedByOrder(s)
    ensures |r| == |s| + 1
    ensures multiset(r) == multiset(s) + multiset{x}
    ensures SortedByOrder(r)
  {
    if s == [] || x.order <= s[0].order then
      assert forall k | 0 <= k < |s| :: x.order <= s[k].order;
      [x] + s
    else
      var tail := InsertByOrder(x, s[1..]);
      assert s == [s[0]] + s[1..];
      InsertHeadBound(x, s, tail);
      [s[0]] + tail
  }

  lemma InsertHeadBound(x: Row, s: seq<Row>, tail: seq<Row>)
    requires SortedByOrder(s) && s != [] && s[0].order < x.order
    requires multiset(tail) == multiset(s[1..]) + multiset{x}
    ensures forall k | 0 <= k < |tail| :: s[0].order <= tail[k].order
  {
    forall k | 0 <= k < |tail| ensures s[0].order <= tail[k].order {
      assert tail[k] in multiset(tail);
      if tail[k] != x {
        assert tail[k] in s[1..];
      }
    }
  }

  /** The rows sorted by ascending order; rows of equal order keep their table order. */
  function SortByOrder(s: seq<Row>): (r: seq<Row>)
    ensures |r| == |s|
    ensures multiset(r) == multiset(s)
    ensures SortedByOrder(r)
  {
    if s == [] then []
    else
      assert s == [s[0]] + s[1..];
      InsertByOrder(s[0], SortByOrder(s[1..]))
  }

  // ---------------------------------------------------------------------------------------
  // `updateMany({ where: { <parent>: p, order: <window> }, data: { order: { increment: delta } } })`

  /** A filter on the order column: `From(lo)` is `gte: lo` (`gt: s` is `From(s + 1)`),
      `Between(lo, hi)` is `gte: lo, lt: hi` (`lte: d` is `lt: d + 1`). */
  datatype Window = From(lo: int) | Between(lo: int, hi: int)

  predicate InWindow(o: int, w: Window)
  {
    match w
    case From(lo) => lo <= o
    case Between(lo, hi) => lo <= o < hi
  }

  function UpdateMany(rows: seq<Row>, p: Id, w: Window, delta: int): (r: seq<Row>)
    ensures |r| == |rows|
    ensures forall i | 0 <= i < |rows| :: r[i].id == rows[i].id && r[i].parent == rows[i].parent
    ensures forall i | 0 <= i < |rows| :: r[i].(order := rows[i].order) == rows[i]
    ensures forall i | 0 <= i < |rows| && rows[i].parent == p && InWindow(rows[i].order, w) ::
              r[i].order == rows[i].order + delta
    ensures forall i | 0 <= i < |rows| && !(rows[i].parent == p && InWindow(rows[i].order, w)) :: r[i] == rows[i]
  {
    seq(|rows|, i requires 0 <= i < |rows| =>
      if rows[i].parent == p && InWindow(rows[i].order, w)
      then rows[i].(order := rows[i].order + delta)
      else rows[i])
  }

  // ---------------------------------------------------------------------------------------
  // `update({ where: { id }, data })`

  predicate HasId(rows: seq<Row>, id: Id)
  {
    exists i :: 0 <= i < |rows| && rows[i].id == id
  }

  /** Sets order (and optionally parent) of the rows with that id. */
  function SetOrder(rows: seq<Row>, id: Id, o: int): (r: seq<Row>)
    ensures |r| == |rows|
  {
    seq(|rows|, i requires 0 <= i < |rows| => if rows[i].id == id then rows[i].(order := o) else rows[i])
  }

  function SetText(rows: seq<Row>, id: Id, t: string): (r: seq<Row>)
    ensures |r| == |rows|
    ensures forall i | 0 <= i < |rows| ::
              r[i].id == rows[i].id && r[i].parent == rows[i].parent && r[i].order == rows[i].order
    ensures forall i | 0 <= i < |rows| :: r[i] == if rows[i].id == id then rows[i].(text := t) else rows[i]
  {
    seq(|rows|, i requires 0 <= i < |rows| => if rows[i].id == id then rows[i].(text := t) else rows[i])
  }

  function SetPlace(rows: seq<Row>, id: Id, p: Id, o: int): (r: seq<Row>)
    ensures |r| == |rows|
    ensures forall i | 0 <= i < |rows| :: r[i].id == rows[i].id
    ensures forall i | 0 <= i < |rows| ::
              r[i] == if rows[i].id == id then rows[i].(parent := p, order := o) else rows[i]
  {
    seq(|rows|, i requires 0 <= i < |rows| =>
      if rows[i].id == id then rows[i].(parent := p, order := o) else rows[i])
  }

  /** With unique ids, an update by id touches exactly the row at `k`. */
  lemma SetPlaceAt(rows: seq<Row>, k: nat, p: Id, o: int)
    requires DistinctIds(rows) && k < |rows|
    ensures SetPlace(rows, rows[k].id, p, o) == rows[k := rows[k].(parent := p, order := o)]
  {
  }

  // `delete({ where: { id } })`: the rows that survive.
  function WithoutId(rows: seq<Row>, id: Id): (r: seq<Row>)
    ensures |r| <= |rows|
  {
    if rows == [] then []
    else
      var last := rows[|rows| - 1];
      assert rows == rows[..|rows| - 1] + [last];
      WithoutId(rows[..|rows| - 1], id) + (if last.id != id then [last] else [])
  }

  /** The rows that survive are exactly those with another id. */
  lemma {:induction false} WithoutIdMembers(rows: seq<Row>, id: Id)
    ensures forall x :: x in WithoutId(rows, id) <==> x in rows && x.id != id
  {
    if rows != [] {
      var n := |rows|;
      WithoutIdMembers(rows[..n - 1], id);
      WithoutIdDropLast(rows, id);
      assert rows == rows[..n - 1] + [rows[n - 1]];
    }
  }

  /** One unfolding of `WithoutId`. */
  lemma WithoutIdDropLast(rows: seq<Row>, id: Id)
    requires rows != []
    ensures WithoutId(rows, id)
         == WithoutId(rows[..|rows| - 1], id) + (if rows[|rows| - 1].id != id then [rows[|rows| - 1]] else [])
  {
  }

  /** Deleting a row that is not `q`'s leaves `q`'s rows as they were. */
  lemma {:induction false} WithoutIdOtherSiblings(rows: seq<Row>, id: Id, q: Id)
    requires forall i | 0 <= i < |rows| && rows[i].id == id :: rows[i].parent != q
    ensures Siblings(WithoutId(rows, id), q) == Siblings(rows, q)
  {
    if rows != [] {
      var n := |rows|;
      var prefix, last := rows[..n - 1], rows[n - 1];
      assert forall i | 0 <= i < |prefix| && prefix[i].id == id :: prefix[i].parent != q by {
        assert forall i | 0 <= i < |prefix| :: prefix[i] == rows[i];
      }
      WithoutIdOtherSiblings(prefix, id, q);
      SiblingsDropLast(rows, q);
      WithoutIdDropLast(rows, id);
      var kept := WithoutId(prefix, id);
      var tail := if last.parent == q then [last] else [];
      if last.id != id {
        SiblingsAppend(kept, last, q);
        assert Siblings(WithoutId(rows, id), q) == Siblings(kept, q) + tail;
      } else {
        assert WithoutId(rows, id) == kept by {
          assert kept + [] == kept;
        }
        assert Siblings(rows, q) == Siblings(prefix, q) by {
          assert tail == [];
          assert Siblings(prefix, q) + [] == Siblings(prefix, q);
        }
      }
    }
  }

  lemma {:induction false} WithoutIdDistinct(rows: seq<Row>, id: Id)
    requires DistinctIds(rows)
    ensures DistinctIds(WithoutId(rows, id))
  {
    if rows != [] {
      var n := |rows|;
      WithoutIdDistinct(rows[..n - 1], id);
      WithoutIdMembers(rows[..n - 1], id);
      WithoutIdDropLast(rows, id);
      var prev := WithoutId(rows[..n - 1], id);
      forall x | x in prev ensures x.id != rows[n - 1].id {
        assert x in rows[..n - 1];
      }
    }
  }

  // ---------------------------------------------------------------------------------------
  // Renumbering: `ranked.map((row, index) => update({ where: { id: row.id }, data: { order: index } }))`

  /** The last position of a row with that id in `ranked`, or -1. */
  function LastPos(ranked: seq<Row>, id: Id): (k: int)
    ensures -1 <= k < |ranked|
    ensures k >= 0 ==> ranked[k].id == id && forall j | k < j < |ranked| :: ranked[j].id != id
    ensures k == -1 ==> forall j | 0 <= j < |ranked| :: ranked[j].id != id
  {
    if ranked == [] then -1
    else if ranked[|ranked| - 1].id == id then |ranked| - 1
    else LastPos(ranked[..|ranked| - 1], id)
  }

  /** What the renumbering writes into one row: a row whose id occurs in `ranked` takes the
      last index at which it occurs (the last write wins); any other row is left alone. */
  function ReindexRow(row: Row, ranked: seq<Row>): Row
  {
    var k := LastPos(ranked, row.id);
    if k >= 0 then row.(order := k) else row
  }

  function Reindexed(rows: seq<Row>, ranked: seq<Row>): (r: seq<Row>)
    ensures |r| == |rows|
    ensures forall i | 0 <= i < |rows| :: r[i] == ReindexRow(rows[i], ranked)
    ensures forall i | 0 <= i < |rows| :: r[i].id == rows[i].id && r[i].parent == rows[i].parent
  {
    seq(|rows|, i requires 0 <= i < |rows| => ReindexRow(rows[i], ranked))
  }

  /** The update loop, one `update` by id per ranked row. */
  method Renumber(rows: seq<Row>, ranked: seq<Row>) returns (out: seq<Row>)
    ensures out == Reindexed(rows, ranked)
  {
    out := rows;
    for i := 0 to |ranked|
      invariant out == Reindexed(rows, ranked[..i])
    {
      forall id | true ensures LastPos(ranked[..i + 1], id) == if ranked[i].id == id then i else LastPos(ranked[..i], id) {
        assert ranked[..i + 1][..i] == ranked[..i];
      }
      out := SetOrder(out, ranked[i].id, i);
    }
    assert ranked[..|ranked|] == ranked;
  }

  /** After renumbering a parent's rows in any arrangement `ranked` of them, each of that
      parent's rows takes the position where it stands in `ranked`; no other row is touched. */
  lemma ReindexedPosition(rows: seq<Row>, p: Id, ranked: seq<Row>, i: nat)
    requires DistinctIds(rows)
    requires multiset(ranked) == multiset(Siblings(rows, p))
    requires i < |rows|
    ensures var k := LastPos(ranked, rows[i].id);
            if rows[i].parent == p then 0 <= k && ranked[k] == rows[i] else k == -1
  {
    var k := LastPos(ranked, rows[i].id);
    SiblingsMembers(rows, p);
    if rows[i].parent == p {
      assert rows[i] in Siblings(rows, p);
      assert rows[i] in multiset(ranked);
      var j :| 0 <= j < |ranked| && ranked[j] == rows[i];
      assert k >= j >= 0;
    }
    if k >= 0 {
      assert ranked[k] in multiset(Siblings(rows, p));
      assert ranked[k] in rows;
      var m :| 0 <= m < |rows| && rows[m] == ranked[k];
      assert m == i;
    }
  }

  /** Renumbering a parent's rows in any arrangement of them leaves that parent dense and
      every other row untouched. */
  lemma ReindexedDense(rows: seq<Row>, p: Id, ranked: seq<Row>)
    requires DistinctIds(rows)
    requires multiset(ranked) == multiset(Siblings(rows, p))
    ensures Dense(Reindexed(rows, ranked), p)
    ensures forall i | 0 <= i < |rows| && rows[i].parent != p :: Reindexed(rows, ranked)[i] == rows[i]
  {
    var out := Reindexed(rows, ranked);
    assert forall i | 0 <= i < |rows| :: out[i].parent == rows[i].parent;
    CountSameParents(rows, out, p);
    assert |ranked| == Count(rows, p) by {
      assert |multiset(ranked)| == |multiset(Siblings(rows, p))|;
    }
    forall i | 0 <= i < |rows|
      ensures rows[i].parent == p ==> 0 <= out[i].order < Count(out, p) && ranked[out[i].order] == rows[i]
      ensures rows[i].parent != p ==> out[i] == rows[i]
    {
      ReindexedPosition(rows, p, ranked, i);
    }
  }

  /** Renumbering in ascending-order rank keeps the siblings' relative order. */
  lemma ReindexedKeepsOrder(rows: seq<Row>, p: Id, ranked: seq<Row>, i: nat, j: nat)
    requires DistinctIds(rows)
    requires multiset(ranked) == multiset(Siblings(rows, p)) && SortedByOrder(ranked)
    requires i < |rows| && j < |rows| && rows[i].parent == p && rows[j].parent == p
    requires rows[i].order < rows[j].order
    ensures Reindexed(rows, ranked)[i].order < Reindexed(rows, ranked)[j].order
  {
    var ki, kj := LastPos(ranked, rows[i].id), LastPos(ranked, rows[j].id);
    assert 0 <= ki && ranked[ki] == rows[i] by { ReindexedPosition(rows, p, ranked, i); }
    assert 0 <= kj && ranked[kj] == rows[j] by { ReindexedPosition(rows, p, ranked, j); }
    SortedRank(ranked, ki, kj);
    assert ReindexRow(rows[i], ranked).order == ki;
    assert ReindexRow(rows[j], ranked).order == kj;
  }

  /** In a sorted sequence a strictly smaller order stands strictly earlier. */
  lemma SortedRank(ranked: seq<Row>, a: int, b: int)
    requires SortedByOrder(ranked) && 0 <= a < |ranked| && 0 <= b < |ranked|
    requires ranked[a].order < ranked[b].order
    ensures a < b
  {
  }
}

=== FILE: sse.dfy ===
/** The server-sent-events fanout hub: which browser tabs are watching which board, and
    what each tab's event stream has been sent. */
module Sse {
  import opened Wire

  /** A tab's open stream controller; only its identity matters here. */
  datatype Controller = Controller(stream: nat)

  /** `boardId -> (tabId -> controller)`. */
  type Clients = map<Id, map<Id, Controller>>

  /** No board is kept with an empty set of tabs. */
  predicate NoEmptyBoards(clients: Clients)
  {
    forall b | b in clients :: clients[b] != map[]
  }

  /** `addClient`: create the board's inner map when it is absent, then map the tab to the
      controller (replacing any controller the tab had). */
  function WithClient(clients: Clients, boardId: Id, tabId: Id, controller: Controller): (r: Clients)
    ensures r.Keys == clients.Keys + {boardId}
    ensures r[boardId].Keys == (if boardId in clients then clients[boardId].Keys else {}) + {tabId}
    ensures r[boardId][tabId] == controller
    ensures forall t | t in r[boardId] && t != tabId :: r[boardId][t] == clients[boardId][t]
    ensures forall b | b in clients && b != boardId :: r[b] == clients[b]
  {
    var tabs := if boardId in clients then clients[boardId] else map[];
    clients[boardId := tabs[tabId := controller]]
  }

  /** `removeClient`: forget the tab, then drop the board once its last tab is gone. */
  function WithoutClient(clients: Clients, boardId: Id, tabId: Id): (r: Clients)
    ensures boardId !in clients ==> r == clients
    ensures boardId in r ==> boardId in clients && r[boardId] == clients[boardId] - {tabId}
    ensures boardId in clients && boardId !in r ==> clients[boardId].Keys <= {tabId}
    ensures r.Keys <= clients.Keys && r.Keys >= clients.Keys - {boardId}
    ensures forall b | b in clients && b != boardId :: r[b] == clients[b]
  {
    if boardId !in clients then clients
    else
      var tabs := clients[boardId] - {tabId};
      if |tabs| == 0 then clients - {boardId} else clients[boardId := tabs]
  }

  /** The tabs `sendSSEUpdate` writes to: every tab of the board except the originating one. */
  function Recipients(clients: Clients, boardId: Id, excludeTabId: Id): (r: set<Id>)
    ensures forall t :: t in r <==> boardId in clients && t in clients[boardId] && t != excludeTabId
  {
    if boardId in clients then clients[boardId].Keys - {excludeTabId} else {}
  }

  /** The frames enqueued so far on the stream of `tabId` watching `boardId`. */
  function Received<B(==), T(==)>(outbox: map<(B, T), seq<string>>, boardId: B, tabId: T): seq<string>
  {
    if (boardId, tabId) in outbox then outbox[(boardId, tabId)] else []
  }

  /** One event-stream frame carrying `payload`. */
  function Frame(payload: string): (r: string)
    ensures |r| == |payload| + 8 && r[..6] == "data: " && r[|r| - 2..] == "\n\n"
  {
    "data: " + payload + "\n\n"
  }

  /** `streams` is `outbox` with one `Frame(payload)` appended for each tab of `boardId`
      in `sentTo`, and nothing else changed. */
  ghost predicate DeliveredTo<B(!new), T(!new)>(outbox: map<(B, T), seq<string>>, streams: map<(B, T), seq<string>>,
                                                boardId: B, sentTo: set<T>, payload: string)
  {
    forall b, t ::
      Received(streams, b, t) == Received(outbox, b, t) + (if b == boardId && t in sentTo then [Frame(payload)] else [])
  }

  /** Part way through the `forEach`: the tabs of `tabs` already visited (not in `remaining`),
      except `excludeTabId`, have had one frame appended. */
  ghost predicate VisitedAllBut<B(!new), T(!new)>(outbox: map<(B, T), seq<string>>, streams: map<(B, T), seq<string>>,
                                                  boardId: B, tabs: set<T>, remaining: set<T>, excludeTabId: T, payload: string)
  {
    forall b, t ::
      Received(streams, b, t)
        == Received(outbox, b, t) + (if b == boardId && t in tabs && t !in remaining && t != excludeTabId then [Frame(payload)] else [])
  }

  /** Visiting one more tab keeps `VisitedAllBut`, writing to the tab unless it is the
      originating one. */
  lemma VisitOne<B(!new), T(!new)>(outbox: map<(B, T), seq<string>>, streams: map<(B, T), seq<string>>,
                                   boardId: B, tabs: set<T>, remaining: set<T>, excludeTabId: T, tabId: T, payload: string)
    requires VisitedAllBut(outbox, streams, boardId, tabs, remaining, excludeTabId, payload)
    requires tabId in remaining && remaining <= tabs
    ensures var next := if tabId != excludeTabId
                        then streams[(boardId, tabId) := Received(streams, boardId, tabId) + [Frame(payload)]]
                        else streams;
            VisitedAllBut(outbox, next, boardId, tabs, remaining - {tabId}, excludeTabId, payload)
  {
    var next := if tabId != excludeTabId
                then streams[(boardId, tabId) := Received(streams, boardId, tabId) + [Frame(payload)]]
                else streams;
    forall b, t
      ensures Received(next, b, t)
           == Received(outbox, b, t) + (if b == boardId && t in tabs && t !in remaining - {tabId} && t != excludeTabId then [Frame(payload)] else [])
    {
      if b == boardId && t == tabId {
        assert Received(streams, b, t) == Received(outbox, b, t);
      } else {
        assert Received(next, b, t) == Received(streams, b, t);
      }
    }
  }

  /** The `forEach` over a board's tabs: append `Frame(payload)` to the stream of every tab
      in `tabs` except `excludeTabId`, counting the frames. */
  method Broadcast<B(==,!new), T(==,!new)>(outbox: map<(B, T), seq<string>>, boardId: B, tabs: set<T>, excludeTabId: T, payload: string)
    returns (streams: map<(B, T), seq<string>>, updatesSent: nat)
    ensures DeliveredTo(outbox, streams, boardId, tabs - {excludeTabId}, payload)
    ensures updatesSent == |tabs - {excludeTabId}|
  {
    var remaining := tabs;
    streams := outbox;
    updatesSent := 0;
    while remaining != {}
      invariant remaining <= tabs
      invariant VisitedAllBut(outbox, streams, boardId, tabs, remaining, excludeTabId, payload)
      invariant updatesSent + |remaining - {excludeTabId}| == |tabs - {excludeTabId}|
      decreases |remaining|
    {
      var tabId :| tabId in remaining;
      VisitOne(outbox, streams, boardId, tabs, remaining, excludeTabId, tabId, payload);
      LeftToWrite(remaining, tabId, excludeTabId);
      if tabId != excludeTabId {
        streams := streams[(boardId, tabId) := Received(streams, boardId, tabId) + [Frame(payload)]];
        updatesSent := updatesSent + 1;
      }
      remaining := remaining - {tabId};
    }
  }

  /** Visiting one tab leaves one fewer tab to write to, unless it is the originating tab. */
  lemma LeftToWrite<T>(remaining: set<T>, tabId: T, excludeTabId: T)
    requires tabId in remaining
    ensures |(remaining - {tabId}) - {excludeTabId}|
         == |remaining - {excludeTabId}| - (if tabId != excludeTabId then 1 else 0)
  {
    if tabId != excludeTabId {
      assert remaining - {excludeTabId} == (remaining - {tabId}) - {excludeTabId} + {tabId};
    } else {
      assert (remaining - {tabId}) - {excludeTabId} == remaining - {excludeTabId};
    }
  }

  /** Adding a tab keeps every board non-empty. */
  lemma AddKeepsNoEmptyBoards(clients: Clients, boardId: Id, tabId: Id, controller: Controller)
    requires NoEmptyBoards(clients)
    ensures NoEmptyBoards(WithClient(clients, boardId, tabId, controller))
  {
    var r := WithClient(clients, boardId, tabId, controller);
    assert tabId in r[boardId];
  }

  /** Re-adding a tab that is already registered replaces its controller and does not grow
      the board's tab map. */
  lemma ReAddDoesNotGrow(clients: Clients, boardId: Id, tabId: Id, controller: Controller)
    requires boardId in clients && tabId in clients[boardId]
    ensures |WithClient(clients, boardId, tabId, controller)[boardId]| == |clients[boardId]|
  {
    var r := WithClient(clients, boardId, tabId, controller);
    assert r[boardId].Keys == clients[boardId].Keys;
    assert |r[boardId]| == |r[boardId].Keys|;
  }

  /** Removing a tab keeps every board non-empty: the board is dropped with its last tab. */
  lemma RemoveKeepsNoEmptyBoards(clients: Clients, boardId: Id, tabId: Id)
    requires NoEmptyBoards(clients)
    ensures NoEmptyBoards(WithoutClient(clients, boardId, tabId))
  {
    var r := WithoutClient(clients, boardId, tabId);
    forall b | b in r ensures r[b] != map[] {
      if b == boardId {
        assert |clients[boardId] - {tabId}| != 0;
      }
    }
  }

  /** Removing an unknown board or tab changes nothing. */
  lemma RemoveUnknownIsNoOp(clients: Clients, boardId: Id, tabId: Id)
    requires NoEmptyBoards(clients)
    requires boardId !in clients || tabId !in clients[boardId]
    ensures WithoutClient(clients, boardId, tabId) == clients
  {
    if boardId in clients {
      var tabs := clients[boardId] - {tabId};
      assert tabs == clients[boardId];
      assert |tabs| != 0 by {
        var t :| t in clients[boardId];
        assert t in tabs;
      }
    }
  }

  /** The number of tabs written to is the board's tab count, less one when the originating
      tab is registered; none when the board has no entry. */
  lemma RecipientsCount(clients: Clients, boardId: Id, excludeTabId: Id)
    ensures |Recipients(clients, boardId, excludeTabId)|
         == if boardId in clients
            then |clients[boardId]| - (if excludeTabId in clients[boardId] then 1 else 0)
            else 0
  {
    if boardId in clients {
      var tabs := clients[boardId].Keys;
      assert |clients[boardId]| == |tabs|;
      if excludeTabId in tabs {
        assert tabs == (tabs - {excludeTabId}) + {excludeTabId};
      } else {
        assert tabs - {excludeTabId} == tabs;
      }
    }
  }

  /** The process-wide registry, with every tab's stream modelled as the list of frames
      enqueued on it so far. */
  class Registry {
    var clients: Clients
    var outbox: map<(Id, Id), seq<string>>

    predicate Valid()
      reads this
    {
      NoEmptyBoards(clients)
    }

    constructor ()
      ensures Valid() && clients == map[] && outbox == map[]
    {
      clients := map[];
      outbox := map[];
    }

    method AddClient(boardId: Id, tabId: Id, controller: Controller)
      requires Valid()
      modifies this
      ensures Valid()
      ensures clients == WithClient(old(clients), boardId, tabId, controller)
      ensures outbox == old(outbox)
    {
      AddKeepsNoEmptyBoards(clients, boardId, tabId, controller);
      var tabs := if boardId in clients then clients[boardId] else map[];
      clients := clients[boardId := tabs[tabId := controller]];
    }

    method RemoveClient(boardId: Id, tabId: Id)
      requires Valid()
      modifies this
      ensures Valid()
      ensures clients == WithoutClient(old(clients), boardId, tabId)
      ensures outbox == old(outbox)
    {
      RemoveKeepsNoEmptyBoards(clients, boardId, tabId);
      if boardId in clients {
        var tabs := clients[boardId] - {tabId};
        if |tabs| == 0 {
          clients := clients - {boardId};
        } else {
          clients := clients[boardId := tabs];
        }
      }
    }

    /** `sendSSEUpdate`: when the board has an entry, enqueue one frame on every tab of it
        except the originating one and count the frames sent; otherwise send nothing. */
    method SendUpdate(boardId: Id, excludeTabId: Id, payload: string) returns (updatesSent: nat)
      modifies this
      ensures clients == old(clients)
      ensures DeliveredTo(old(outbox), outbox, boardId, Recipients(clients, boardId, excludeTabId), payload)
      ensures updatesSent == |Recipients(clients, boardId, excludeTabId)|
    {
      updatesSent := 0;
      var boardClients := if boardId in clients then Some(clients[boardId]) else None;
      if boardClients.Some? {
        outbox, updatesSent := Broadcast(outbox, boardId, boardClients.value.Keys, excludeTabId, payload);
      }
    }
  }
}

=== FILE: wire.dfy ===
/** Values exchanged between the board client and the board server. */
module Wire {

  /** Identifiers of boards, lists, cards and users; opaque strings. */
  type Id = string

  datatype Option<T> = None | Some(value: T)

  /** One queued edit, as the client builds it and the server receives it.
      The `boardId` every payload carries is not modelled: neither side reads it.
      `Unrecognised` stands for a `type` tag outside the eight known kinds. */
  datatype Change =
    | AddList(title: string)
    | DeleteList(listId: Id)
    | UpdateListTitle(listId: Id, newTitle: string)
    | ReorderList(sourceIndex: int, destinationIndex: int)
    | AddCard(listId: Id, content: string)
    | DeleteCard(listId: Id, cardId: Id)
    | UpdateCardContent(listId: Id, cardId: Id, newContent: string)
    | MoveCard(sourceListId: Id, destinationListId: Id, sourceIndex: int, destinationIndex: int, cardId: Id)
    | Unrecognised(kind: string)
}
